=== FILE: README.md ===
# Driver queue client — a Dafny model

This project models the client side of a warehouse unloading queue (the
`motorista-app` React Native application). Drivers announce their arrival
from their phone and then wait in a queue. An operator starts and finishes
their unloading. The model covers the logic of that client:

- **the roster provider** (`MotoristasProvider`): the list of queue entries,
  the last error and the busy flag, plus the four server operations.
  These are refresh, register an arrival, start unloading and finish
  unloading. Each is a transition from the state before the call to the
  state once its promise has settled. The server's answer is an input.
  Module `Roster`; the record and the stable sort by arrival time are in
  `Motoristas` and `Ordenacao`.
- **the queue screen**: the three status sections, each sorted, with the
  empty ones dropped. Also the waiting preview of the arrival screen.
  Module `Fila`.
- **the entry card**: the live waiting and unloading times and their
  `HH:MM:SS` rendering (module `Tempos`).
- **the colour helper** `corPorTempo` of `utils/cores.js`: the colour band of
  a waiting time (module `Cores`). None of the modelled screens calls it;
  the card colours its entries by status and draws its timer in a fixed
  colour.
- **the settings provider**: loading and saving the server URL and the send
  interval over a key-value store whose calls may throw. Module
  `ConfigStore`.
- **the two arrival screens**: the gate sequence run when a driver presses
  "arrived", covering the name, permission, position fix, unloading area,
  registration and remembering the name. Module `Chegada`.
- **the settings screen**: validation of the basic settings and of the
  geofence, the minutes ↔ milliseconds conversion and the password prompt.
  Module `ConfigScreen`.
- **the CPF input mask**: the digit strip, the three regular-expression
  replacements that insert the separators, and the 14-character cut, proved equal to a case-by-case closed form. Module
  `Masks`.

`JsText` holds the JavaScript string primitives the application relies on:
`trim`, `parseInt(s, 10)`, integer `toString`, `padStart(2, '0')`, the
ECMAScript whitespace set, and the decimal numeral round trip.

Device, network and clock answers are parameters. These include
`fetch` results, storage failures, location permission, the position fix,
the geofence test and the current instant. Timestamps are integers in
milliseconds.

## Behaviour worth knowing

- Loading the settings stops at the first storage read that throws.
  There is no per-field fallback: a failing URL read also skips the
  interval read.
- The client never checks an entry's status before starting or finishing
  its unloading. The order waiting → unloading → unloaded is left to the
  server.
- The settings screen calls `salvarConfiguracoes` with one object, but the
  provider takes `(url, intervalo)`. The screen also reads fields the
  provider does not supply (`geofenceLatitude`, `error`, `clearError`). The
  screen is therefore modelled on its own terms: its save call is an input
  that answers true, false or throws.

## Model

| member | source | states |
|---|---|---|
| Motoristas.FromServerAll | context/MotoristasContext.tsx:50-53 | one roster entry per server item, in the same order, each carrying the item unchanged with `id` set to its `_id` |
| Ordenacao.Sort | context/MotoristasContext.tsx:93-95 | the comparator sort yields a list ordered by arrival time that is a permutation of its input |
| Ordenacao.InsertSorted | context/MotoristasContext.tsx:93-95 | inserting one entry into a list already in arrival order keeps it in order |
| Ordenacao.InsertPermutes | context/MotoristasContext.tsx:93-95 | insertion adds exactly the new entry and loses none |
| Ordenacao.SortOfSorted | context/MotoristasContext.tsx:93-95 | a list already in arrival order comes back unchanged, ties included |
| Ordenacao.InsertKeepsTies | context/MotoristasContext.tsx:93-95 | for every arrival time, insertion keeps the entries with that time in their order and puts the new entry after those with its own time |
| Ordenacao.SortIsStable | context/MotoristasContext.tsx:93-95 | the sort is stable: for every arrival time, the entries with that time come out in the order they went in, whatever the input order |
| Ordenacao.StableSortedUnique | context/MotoristasContext.tsx:93-95 | two lists in arrival order that list the entries of every arrival time in the same order are equal |
| Ordenacao.SortIsTheStableSort | context/MotoristasContext.tsx:93-95 | any list in arrival order that keeps the input order among equal times, as the engine's stable sort does, is exactly the modelled sort |
| Ordenacao.InsertSplits | context/MotoristasContext.tsx:93-95 | insertion places the new entry after every entry that arrived no later and before every entry that arrived later, the rest in their old order |
| Roster.AppErrorMessage | context/MotoristasContext.tsx:49 | `json.erro \|\| 'Erro desconhecido'` is the server's message when that is present and non-empty, and "Erro desconhecido" otherwise |
| Roster.RefreshRoster | context/MotoristasContext.tsx:38-62 | no URL: empty roster and no request. Success: the roster is the mapped server list and the error is cleared. Failure: roster kept, error set to the HTTP, server or rejection message. Never throws; with a URL set, the busy flag ends false (without one it is left as it was) |
| Roster.AddMotorista | context/MotoristasContext.tsx:76-103 | no URL: error "API não configurada", roster unchanged, no throw. Success: the roster is the old one plus the new entry, in arrival order, and the error is cleared. Failure: roster unchanged, error set and rethrown |
| Roster.Transition | context/MotoristasContext.tsx:105-151 | start/finish unloading: PUT to the entry's action path; success keeps the length, leaves every other id untouched, replaces each matching id with the server record and keeps an earlier error; failure keeps the roster, sets the error and rethrows |
| Roster.ReplaceById | context/MotoristasContext.tsx:120 | the in-place map replaces exactly the entries with the given id and keeps the length |
| Roster.RefreshLastWins | context/MotoristasContext.tsx:50-55 | refresh replaces the roster and does not merge: two successful refreshes leave exactly the second answer |
| Roster.SettledNotLoading | context/MotoristasContext.tsx:59-150 | every one of the four operations leaves the busy flag false once settled |
| Roster.AddInsertsInPlace | context/MotoristasContext.tsx:91-95 | on a roster in arrival order a successful add inserts the new entry in place: after every entry that arrived no later, before the later ones, nothing else moved |
| Roster.ReplaceAbsentId | context/MotoristasContext.tsx:120 | an id absent from the roster leaves it as it is |
| Roster.ReplaceIdempotent | context/MotoristasContext.tsx:144 | applying the same server answer twice changes nothing more |
| Roster.FinishDoesNotCheckStatus | context/MotoristasContext.tsx:129-138 | finishing an entry that is still waiting sends the request all the same |
| Fila.WithStatus | app/fila.tsx:22 | every entry the status filter keeps has that status |
| Fila.WithStatusCounts | app/fila.tsx:22 | the filter keeps every copy of each entry with the status and nothing else |
| Fila.WithStatusNonEmptyIff | app/fila.tsx:22 | the filtered list is non-empty exactly when some roster entry has the status |
| Fila.SecaoDe | app/fila.tsx:20-31 | a section holds exactly the entries with its status; waiting and unloading sections are in ascending arrival order, the finished section in descending order |
| Fila.KeepThree | app/fila.tsx:19-32 | the empty-section filter keeps the non-empty sections in their fixed order |
| Fila.Secoes | app/fila.tsx:19-32 | every listed section is the non-empty section of its status, and the statuses appear in the order waiting, unloading, finished |
| Fila.StatusPartition | app/fila.tsx:19-31 | the three status filters split the roster: their multisets add up to the roster's |
| Fila.SectionsCoverRoster | app/fila.tsx:19-32 | all sections together hold the roster, each entry exactly once |
| Fila.SectionPresentIff | app/fila.tsx:32 | a status has a section exactly when some entry has that status |
| Fila.Proximos | app/index.tsx:15 | the waiting preview has at most three entries, all waiting, and is the start of the waiting entries in roster order |
| Tempos.Segundos | components/MotoristaItem.tsx:34 | `Math.floor(ms / 1000)` is the whole number of seconds, negative spans included |
| Tempos.CalcularTempos | components/MotoristaItem.tsx:29-40 | waiting: queue time from arrival to now, unloading time as stored (missing → 0). Unloading with a start: stored queue time, unloading time from the start. Otherwise both stored (missing → 0) |
| Tempos.WaitingTimeMonotone | components/MotoristaItem.tsx:34 | a waiting entry's queue time never decreases as the clock advances |
| Tempos.FrozenIndependentOfClock | components/MotoristaItem.tsx:30-39 | finished entries, and unloading ones with no start instant, show values that do not depend on the clock |
| Tempos.JsRem | components/MotoristaItem.tsx:46-47 | JavaScript `%`: the remainder for a non-negative dividend, and a value in (-y, 0] for a negative one |
| Tempos.CamposDe | components/MotoristaItem.tsx:45-47 | for a non-negative duration: minutes and seconds below 60, and hours·3600 + minutes·60 + seconds equal to the duration |
| Tempos.FormatarTempo | components/MotoristaItem.tsx:44-49 | the `hh:mm:ss` text is never shorter than eight characters, for every number of seconds, negatives included (each field is padded to two) |
| Tempos.FormatarTempoRoundTrip | components/MotoristaItem.tsx:44-49 | the text of a non-negative duration has the shape `H…H:MM:SS` of digits, and reading its three numerals back gives the duration |
| Tempos.FormatarTempoWidth | components/MotoristaItem.tsx:48 | the text is exactly eight characters iff the duration is below 100 hours |
| Tempos.NumeralLength | components/MotoristaItem.tsx:48 | a number's numeral has at most two digits iff the number is below 100 |
| Tempos.TextoFila | components/MotoristaItem.tsx:100 | the queue timer shows a clock that reads back as the queue time when that is known and non-negative, and "NaN:NaN:NaN" when it is missing |
| Tempos.MissingQueueTimeShowsNaN | components/MotoristaItem.tsx:35-37 | an unloading entry with a start instant shows the server's queue time unchanged, so "NaN:NaN:NaN" when the server left it out |
| Tempos.WaitingShowsClock | components/MotoristaItem.tsx:33-34 | a waiting entry's queue timer always shows a clock of the whole seconds since arrival |
| Tempos.NegativeSecond | components/MotoristaItem.tsx:45-48 | a duration of −1 s, as a clock running behind the server produces, is rendered `-1:-1:-1` |
| JsText.PadStart2Value | components/MotoristaItem.tsx:48 | a number's numeral padded to two places is all digits and still reads as the number |
| Cores.CorPorTempo | utils/cores.js:1-8 | red iff at least 3600 s, orange iff in [1800, 3600), black iff below 1800, negatives included |
| Cores.GravidadeMonotone | utils/cores.js:4-7 | a longer wait is never shown in a less alarming colour |
| ConfigStore.Carregar | context/ConfigContext.tsx:22-33 | the load always ends loaded; a throwing URL read changes nothing else; a non-empty stored URL is taken; a present stored interval is `parseInt`ed; a throwing interval read keeps the interval |
| ConfigStore.Salvar | context/ConfigContext.tsx:35-46 | the save answers true iff both writes succeed; then both keys hold the URL and the interval's decimal text, and memory holds the new values; on false memory is unchanged, and a failed second write leaves the URL written; other keys are kept |
| ConfigStore.SaveThenLoad | context/ConfigContext.tsx:24-40 | saving any URL and an integer interval and loading on the next start gives back both values; an empty URL is skipped on load and the default, also empty, stays |
| ConfigStore.HalfSavedUrlSurvivesRestart | context/ConfigContext.tsx:37-45 | a save whose second write fails reports false and keeps memory, yet the new URL is stored and is the URL on the next load |
| ConfigStore.LoadEmptyStoreKeepsDefaults | context/ConfigContext.tsx:14-33 | with nothing stored the load keeps the defaults: empty URL and 300000 ms |
| ConfigStore.UrlReadFailureSkipsInterval | context/ConfigContext.tsx:23-30 | a throwing URL read skips the interval read, so both defaults stay |
| JsText.Trim | app/index.tsx:19 | `s.trim()` is a contiguous slice of `s` (what `TrimStart` dropped comes first) that neither starts nor ends with whitespace |
| JsText.TrimDropsOnlyWhitespace | app/index.tsx:19 | `s` is all-whitespace text, then `s.trim()`, then all-whitespace text: nothing but whitespace is cut from either end |
| JsText.TrimEmptyIff | app/index.tsx:19 | `s.trim()` is empty (falsy) exactly when every character of `s` is ECMAScript whitespace |
| JsText.TrimStartDropsWhitespace | app/index.tsx:19 | every character `trimStart` removes is ECMAScript whitespace |
| JsText.ParseInt | context/ConfigContext.tsx:27 | `parseInt(s, 10)` is NaN exactly when no digit follows the leading whitespace and optional sign; a negative result comes only from a leading `-`, and a leading `-` never gives a positive one |
| JsText.ParseIntOfIntToString | context/ConfigContext.tsx:26-38 | `parseInt(i.toString(), 10)` is `i` for every integer JavaScript writes out in full (below 10^21 in magnitude) |
| JsText.CanonicalIsNatToString | context/ConfigContext.tsx:38 | a digit string with no leading zero is the `toString` of its value |
| Chegada.Gate | app/index.tsx:17-61 | a blank name stops at once; otherwise permission is asked; registration happens iff permission, a fix and the area test all pass, with the trimmed name; the name is stored and success shown iff the store write succeeds (and, where awaited, the registration did not throw). A blank name, a refused permission, a failed permission request or fix, and being outside the area each show their own alert; a registration that throws while awaited, or a failed name write, shows the generic error |
| Chegada.HandleChegadaIndex | app/index.tsx:39-58 | as written: registration depends only on the name, permission and the fix; "Fora da área" is never shown |
| Chegada.HandleChegadaIndexAwaited | app/index.tsx:39-49 | with the area test awaited: registration requires being in the area, and a driver outside it leaves the roster and stored name untouched |
| Chegada.IndexIgnoresArea | app/index.tsx:39-47 | as written, the outcome is the same inside and outside the area |
| Chegada.OutOfAreaAdmittedAsWritten | app/index.tsx:39-49 | a named driver with permission and a fix outside the area is registered as written, and turned away once the test is awaited |
| Chegada.BlankNameStopsEarly | app/index.tsx:19-22 | a whitespace-only name shows "Informe seu nome" and asks nothing, registers nothing, stores nothing |
| Chegada.UnconfiguredServerStillSucceeds | app/index.tsx:49-52 | with no server URL the registration records an error without throwing, so success is shown and the name stored |
| Chegada.IndexFailedAddNotStored | app/index.tsx:49-58 | a rejected registration shows the generic error, keeps the name in the field and leaves it unstored |
| Chegada.HandleChegada | app/chegada.tsx:15-62 | the busy flag is raised iff the name is not blank and is false at the end of every path; registration iff permission, fix and area all pass; stored and success iff registered and the store write succeeds |
| Chegada.ChegadaIgnoresAddOutcome | app/chegada.tsx:51-54 | the registration is not awaited, so the server's answer changes neither the alert nor whether the name is stored |
| ConfigScreen.ParseUnsigned | app/config.tsx:80 | the unsigned numeral read by `parseFloat` is never negative |
| ConfigScreen.ParseFloatBlank | app/config.tsx:80-81 | blank text parses to NaN |
| ConfigScreen.ParseFloatOfDigits | app/config.tsx:80 | a run of digits parses to the integer it spells |
| ConfigScreen.ParseFloatOfNegative | app/config.tsx:110-112 | a minus sign before digits negates their value |
| ConfigScreen.FractionValueDigits | app/config.tsx:80 | the fraction `0.b` is the integer `b` over ten to the number of its digits |
| ConfigScreen.ParseFloatOfDecimal | app/config.tsx:80 | `a.b` reads as `a` plus the fraction `0.b`, and a lone point as NaN |
| ConfigScreen.HalfMinuteSaved | app/config.tsx:80-91 | an instance: "0.5" minutes is accepted and sent with the trimmed URL as 30000 ms |
| ConfigScreen.MinutesMsInverse | app/config.tsx:90 | `min * 60 * 1000` and the display's `ms / 1000 / 60` invert each other exactly over the reals |
| ConfigScreen.DesfechoSucesso | app/config.tsx:92-98 | the success alert is shown iff the save answered true |
| ConfigScreen.SalvarBasico | app/config.tsx:75-102 | a save request is made iff the trimmed URL is non-empty and the interval parses to a number above 0; it carries the trimmed URL and minutes × 60000; otherwise the URL alert or the interval alert, in that order, and the fields untouched. Once the request is made: success alert iff the answer is true, "Falha ao salvar configurações." on false, the rejection's message on a throw |
| ConfigScreen.SalvarGeofence | app/config.tsx:104-139 | unauthenticated: only the prompt opens. Otherwise a request is made iff all three fields parse, with their values and no range check, else the coordinates alert. A true answer shows the success alert, forgets the password and closes the prompt; false shows "Falha ao salvar geofence localmente.", a throw shows its message, and both leave every field as it was |
| ConfigScreen.VerificarSenha | app/config.tsx:141-149 | authenticated afterwards iff the password is "admin123" (or already was); a correct password clears the field, a wrong one alerts "Senha incorreta" |
| ConfigScreen.PasswordIsSingleUse | app/config.tsx:126-149 | after the password and one successful geofence save, the next save only opens the prompt again |
| ConfigScreen.WholeMinutesSaved | app/config.tsx:80-91 | a positive whole number of minutes typed as text is sent as the trimmed URL and that many minutes in milliseconds |
| ConfigScreen.PositiveMinutesSaved | app/config.tsx:80-91 | any interval text that parses to a positive number v is sent as the trimmed URL and v × 60000 ms |
| ConfigScreen.ZeroMinutesRefused | app/config.tsx:80-84 | a zero interval, however many zeros it is written with, is refused with the interval alert, no request and the fields untouched |
| ConfigScreen.NegativeMinutesRefused | app/config.tsx:80-84 | a negative whole number of minutes is refused with the interval alert, no request and the fields untouched |
| ConfigScreen.NegativeRadiusAccepted | app/config.tsx:110-125 | with parsing coordinates, a radius "-d" for any digits d is sent as −d, next to the parsed coordinates: no bound is checked |
| Masks.CpfMask | utils/masks.ts:1-8 | the mask is at most 14 characters long |
| Masks.FirstRunOf4 | utils/masks.ts:5-6 | the match position is the leftmost run of four digits at or after the start, or there is none |
| Masks.OnlyDigits | utils/masks.ts:4 | `replace(/\D/g, '')` leaves only digits and never lengthens the text |
| Masks.DotFirstRun | utils/masks.ts:5-6 | `replace(/(\d{3})(\d)/, '$1.$2')` adds one character exactly when the text has a run of four digits, otherwise returns it unchanged, and never changes the digits |
| Masks.DashBeforeTail | utils/masks.ts:7 | `replace(/(\d{3})(\d{1,2})$/, '$1-$2')` adds one character exactly when the text ends in four digits, otherwise returns it unchanged, and never changes the digits |
| Masks.MaskIsShape | utils/masks.ts:4-8 | the replacement pipeline equals the closed form: dots after the 3rd and 6th digits, a dash before the last one or two digits of 10–11, cut at 14 |
| Masks.MaskKeepsDigits | utils/masks.ts:4-8 | the mask holds only digits, dots and dashes; its digits are a prefix of the input's digits: all of them up to eleven, eleven for twelve or thirteen, twelve beyond |
| Masks.MaskIgnoresNonDigits | utils/masks.ts:4 | only the digits of the input matter |
| Masks.ElevenDigits | utils/masks.ts:5-7 | eleven digits come out as `DDD.DDD.DDD-DD` |
| Masks.FewDigits | utils/masks.ts:4-8 | up to three digits come out unchanged |
| Masks.MaskIdempotent | utils/masks.ts:4-8 | masking a masked input of up to eleven digits changes nothing |

## Findings

| source | as written | input that shows it | evidently intended | confidence | as-written member | corrected member |
|---|---|---|---|---|---|---|
| app/index.tsx:39-47 | `verificarLocalizacao` is `async` but is called without `await`, so `localCorreto` is a promise, always truthy, and the "Fora da área" branch never runs | a non-blank name, permission granted, a position fix, and a position outside the 500 m radius | await the test, as app/chegada.tsx:40 does, and turn the driver away with "Fora da área" | high; not executed | Chegada.OutOfAreaAdmittedAsWritten | Chegada.HandleChegadaIndexAwaited |

## Left out

- The distance test (`utils/geofence.ts:6-24`, haversine over floating point) is an input boolean. `services/location.js` also hard-codes a different centre and radius; it is not part of this model.
- Refresh timers and the card's one-second clock (`setInterval`) are left out. The clock is a parameter, and overlapping refreshes are a concurrency matter.
- ISO date parsing is left out: every timestamp is an integer number of milliseconds.
- The intermediate busy states (`setLoading(true)`, `setSalvando(true)`) are left out. Only the state once a handler has settled is modelled.
- On `app/chegada.tsx` the unawaited registration settles after the handler; the model shows the roster as it is once both have settled.
- `clearError` is a one-line setter with nothing to prove and is not modelled.
- Numbers are mathematical integers and reals, not IEEE doubles. Rounding, overflow and `-0` are not modelled.
- ConfigScreen.ParseFloat: reads only `[sign]digits[.digits]` after whitespace. Exponents, `Infinity` and IEEE rounding are not modelled.
- The settings screen's display of stored values is left out (`toString` of a fraction of minutes, `app/config.tsx:45-53`). Only the arithmetic conversion is modelled.
- `obterLocalizacaoAtual` (`app/config.tsx:55-73`) is left out: it only copies a device position into two text fields.
- `cpfMask` on a value that is not a string (the `catch` at `utils/masks.ts:9-11`) is left out: the model takes strings only.
- JsText.IntToString: writes every digit. JavaScript switches to exponent notation from 10^21 in magnitude, which `parseInt` would then misread; such intervals are not modelled.
- A queue time the server sends as JSON `null` is not modelled. `formatarTempo(null)` would show `00:00:00`; the model treats a missing value as `undefined`.
- Tempos.JsRem: states only the range of a negative dividend's remainder, not its exact value, because only the sign matters to the rendering.
- Background location tracking, the toast and error modal, layout and styling are platform plumbing or pure UI, not modelled.

=== FILE: chegada.dfy ===
/** The "I have arrived" button of the two arrival screens (`app/index.tsx`
    and `app/chegada.tsx`).  One press runs a sequence of gates (a non-blank
    name, location permission, a position fix, the unloading area) and then
    registers the driver and remembers the name on the device.  Every answer
    from the device and the network is an input. */
module Chegada {

  import opened Common
  import opened JsText
  import opened Motoristas
  import Roster

  const InformeNome: Alert := Alert("Erro", "Informe seu nome")
  const PermissaoNegada: Alert := Alert("Erro", "Permissão de localização negada")
  const ForaDaArea: Alert := Alert("Fora da área", "Você não está no local de descarga.")
  const ErroGenerico: Alert := Alert("Erro", "Ocorreu um erro ao registrar.")
  const Sucesso: Alert := Alert("Sucesso", "Registrado na fila de descarga.")

  /** The settled value of a promise the handler awaits, or its rejection. */
  datatype Answer<T> = Answered(value: T) | Failed

  /** What the device and the server answer during one press.  `inArea` is
      the distance test against the unloading area (at most 500 metres from
      the warehouse); its trigonometry is not modelled. */
  datatype Env = Env(
    permission: Answer<bool>,              // `requestForegroundPermission()`
    positionOk: bool,                      // `getCurrentPositionAsync` resolved
    inArea: bool,                          // `verificarLocalizacao(lat, lon)` once awaited
    storeOk: bool,                         // `AsyncStorage.setItem('@motoristaNome', …)` resolved
    addResponse: Roster.Response<Registro> // the server's answer to the registration
  )

  /** The effects of one press: the alert shown, whether permission was
      asked, the name the roster's add was called with, the roster once that
      call has settled, the name written to the device, and the text left in
      the name field. */
  datatype Press = Press(
    alert: Alert,
    askedPermission: bool,
    added: Option<string>,
    roster: Roster.State,
    storedName: Option<string>,
    nome: string)

  /** The gate sequence both screens share.  `localCorreto` is the value the
      `if (!localCorreto)` test sees; `awaitsAdd` says whether a rejected
      registration reaches the handler's `catch`. */
  function Gate(nome: string, roster: Roster.State, apiUrl: string, env: Env,
                localCorreto: bool, awaitsAdd: bool): (r: Press)
    ensures Trim(nome) == [] ==> r == Press(InformeNome, false, None, roster, None, nome)
    ensures r.askedPermission <==> Trim(nome) != []
    ensures r.added.Some? <==>
      Trim(nome) != [] && env.permission == Answered(true) && env.positionOk && localCorreto
    ensures r.added.Some? ==>
      r.added.value == Trim(nome) && r.roster == Roster.AddMotorista(roster, apiUrl, Trim(nome), env.addResponse).state
    ensures r.added.None? ==> r.roster == roster
    ensures r.storedName.Some? <==>
      && r.added.Some? && env.storeOk
      && (awaitsAdd ==> Roster.AddMotorista(roster, apiUrl, Trim(nome), env.addResponse).outcome == Roster.Returned)
    ensures r.storedName.Some? ==> r.storedName.value == Trim(nome)
    ensures r.alert == Sucesso <==> r.storedName.Some?
    ensures r.added.Some? && r.storedName.None? ==> r.alert == ErroGenerico
    ensures r.nome == if r.storedName.Some? then [] else nome
    ensures Trim(nome) != [] && env.permission == Answered(false) ==> r.alert == PermissaoNegada
    ensures Trim(nome) != [] && env.permission == Answered(true) && env.positionOk && !localCorreto ==>
      r.alert == ForaDaArea
    ensures Trim(nome) != [] && (env.permission.Failed? || (env.permission == Answered(true) && !env.positionOk)) ==>
      r.alert == ErroGenerico
  {
    var t := Trim(nome);
    if t == [] then Press(InformeNome, false, None, roster, None, nome)
    else if env.permission.Failed? || (!env.positionOk && env.permission == Answered(true)) then
      Press(ErroGenerico, true, None, roster, None, nome)
    else if !env.permission.value then Press(PermissaoNegada, true, None, roster, None, nome)
    else if !localCorreto then Press(ForaDaArea, true, None, roster, None, nome)
    else
      var step := Roster.AddMotorista(roster, apiUrl, t, env.addResponse);
      if awaitsAdd && step.outcome.Threw? then Press(ErroGenerico, true, Some(t), step.state, None, nome)
      else if !env.storeOk then Press(ErroGenerico, true, Some(t), step.state, None, nome)
      else Press(Sucesso, true, Some(t), step.state, Some(t), [])
  }

  /** `handleChegada` of `app/index.tsx` as written: the geofence promise is
      not awaited, and a promise is always truthy, so the area test passes
      whatever the position. */
  function HandleChegadaIndex(nome: string, roster: Roster.State, apiUrl: string, env: Env): (r: Press)
    ensures r.added.Some? <==> Trim(nome) != [] && env.permission == Answered(true) && env.positionOk
    ensures r.alert != ForaDaArea
    ensures r.storedName.Some? <==>
      && r.added.Some? && env.storeOk
      && Roster.AddMotorista(roster, apiUrl, Trim(nome), env.addResponse).outcome == Roster.Returned
  {
    assert ForaDaArea != Sucesso && ForaDaArea != ErroGenerico by {
      assert ForaDaArea.title[0] != Sucesso.title[0] && ForaDaArea.title[0] != ErroGenerico.title[0];
    }
    assert ForaDaArea != InformeNome && ForaDaArea != PermissaoNegada by {
      assert ForaDaArea.title[0] != InformeNome.title[0];
    }
    Gate(nome, roster, apiUrl, env, true, true)
  }

  /** The same handler with the geofence promise awaited, as the other
      arrival screen does: a driver outside the area is turned away. */
  function HandleChegadaIndexAwaited(nome: string, roster: Roster.State, apiUrl: string, env: Env): (r: Press)
    ensures r.added.Some? <==>
      Trim(nome) != [] && env.permission == Answered(true) && env.positionOk && env.inArea
    ensures !env.inArea ==> r.roster == roster && r.storedName.None?
    ensures r.storedName.Some? <==>
      && r.added.Some? && env.storeOk
      && Roster.AddMotorista(roster, apiUrl, Trim(nome), env.addResponse).outcome == Roster.Returned
  {
    Gate(nome, roster, apiUrl, env, env.inArea, true)
  }

  /** The outcome of a press on `app/chegada.tsx`, with the screen's own
      busy flag: whether it was raised, and its value once the handler ends. */
  datatype ChegadaPress = ChegadaPress(press: Press, loadingRaised: bool, loading: bool)

  /** `handleChegada` of `app/chegada.tsx`: the geofence is awaited, the
      registration is started but not awaited, and `finally` lowers the busy
      flag on every path, early returns included. */
  function HandleChegada(nome: string, roster: Roster.State, apiUrl: string, env: Env): (r: ChegadaPress)
    ensures !r.loading
    ensures r.loadingRaised <==> Trim(nome) != []
    ensures r.press.added.Some? <==>
      Trim(nome) != [] && env.permission == Answered(true) && env.positionOk && env.inArea
    ensures r.press.storedName.Some? <==> r.press.added.Some? && env.storeOk
    ensures r.press.alert == Sucesso <==> r.press.storedName.Some?
  {
    ChegadaPress(Gate(nome, roster, apiUrl, env, env.inArea, false), Trim(nome) != [], false)
  }

  /** On `app/index.tsx` the position never matters: a driver outside the
      area gets exactly the outcome of one inside it. */
  lemma IndexIgnoresArea(nome: string, roster: Roster.State, apiUrl: string, env: Env)
    ensures HandleChegadaIndex(nome, roster, apiUrl, env.(inArea := false))
         == HandleChegadaIndex(nome, roster, apiUrl, env.(inArea := true))
  {
  }

  /** The concrete case: a named driver with permission and a fix, outside
      the area, is registered by `app/index.tsx` as written and turned away
      once the geofence is awaited. */
  lemma OutOfAreaAdmittedAsWritten(nome: string, roster: Roster.State, apiUrl: string, env: Env)
    requires Trim(nome) != [] && env.permission == Answered(true) && env.positionOk && !env.inArea
    ensures HandleChegadaIndex(nome, roster, apiUrl, env).added == Some(Trim(nome))
    ensures HandleChegadaIndexAwaited(nome, roster, apiUrl, env).alert == ForaDaArea
    ensures HandleChegadaIndexAwaited(nome, roster, apiUrl, env).added == None
  {
  }

  /** A blank name stops either screen before anything else happens. */
  lemma BlankNameStopsEarly(nome: string, roster: Roster.State, apiUrl: string, env: Env)
    requires AllWhitespace(nome)
    ensures HandleChegadaIndex(nome, roster, apiUrl, env) == Press(InformeNome, false, None, roster, None, nome)
    ensures HandleChegada(nome, roster, apiUrl, env) ==
      ChegadaPress(Press(InformeNome, false, None, roster, None, nome), false, false)
  {
    TrimEmptyIff(nome);
  }

  /** With no server configured the roster's add records an error but does
      not throw, so `app/index.tsx` reports success and remembers the name. */
  lemma UnconfiguredServerStillSucceeds(nome: string, roster: Roster.State, env: Env)
    requires Trim(nome) != [] && env.permission == Answered(true) && env.positionOk && env.storeOk
    ensures HandleChegadaIndex(nome, roster, [], env).alert == Sucesso
    ensures HandleChegadaIndex(nome, roster, [], env).roster.error == Some(Roster.NotConfigured)
    ensures HandleChegadaIndex(nome, roster, [], env).storedName == Some(Trim(nome))
  {
  }

  /** On `app/chegada.tsx` the server's answer cannot change what the
      driver is told or whether the name is stored: the registration's
      promise is never awaited. */
  lemma ChegadaIgnoresAddOutcome(nome: string, roster: Roster.State, apiUrl: string, env: Env,
                                 other: Roster.Response<Registro>)
    ensures HandleChegada(nome, roster, apiUrl, env).press.alert
         == HandleChegada(nome, roster, apiUrl, env.(addResponse := other)).press.alert
    ensures HandleChegada(nome, roster, apiUrl, env).press.storedName
         == HandleChegada(nome, roster, apiUrl, env.(addResponse := other)).press.storedName
  {
  }

  /** A rejected registration on `app/index.tsx` shows the generic error and
      leaves the name unsaved, while the roster records the failure. */
  lemma IndexFailedAddNotStored(nome: string, roster: Roster.State, apiUrl: string, env: Env)
    requires Trim(nome) != [] && env.permission == Answered(true) && env.positionOk
    requires apiUrl != [] && !env.addResponse.Ok?
    ensures HandleChegadaIndex(nome, roster, apiUrl, env).alert == ErroGenerico
    ensures HandleChegadaIndex(nome, roster, apiUrl, env).storedName == None
    ensures HandleChegadaIndex(nome, roster, apiUrl, env).roster.motoristas == roster.motoristas
    ensures HandleChegadaIndex(nome, roster, apiUrl, env).nome == nome
  {
  }
}

=== FILE: config.dfy ===
/** The settings provider (`ConfigProvider`): the server URL and the send
    interval, loaded once from the device's key-value storage and written
    back by an explicit save.  Storage is a map from keys to strings; which
    storage calls throw is an input. */
module ConfigStore {

  import opened Common
  import opened JsText

  /** The in-memory settings.  `intervaloEnvio` is in milliseconds; it is
      NaN when the stored text is not a number. */
  datatype Config = Config(apiUrl: string, intervaloEnvio: JsInt, carregado: bool)

  const IntervaloPadrao: int := 300000   // five minutes

  /** The state before loading. */
  const Initial: Config := Config("", Int(IntervaloPadrao), false)

  const ChaveApiUrl: string := "@apiUrl"
  const ChaveIntervalo: string := "@intervaloEnvio"

  type Store = map<string, string>

  /** The keys whose `getItem` or `setItem` call rejects. */
  datatype Faults = Faults(failingReads: set<string>, failingWrites: set<string>)

  const NoFaults: Faults := Faults({}, {})

  /** `if (value)` on the result of `getItem`: absent (null) and empty
      strings are falsy. */
  predicate Present(store: Store, key: string) {
    key in store && store[key] != []
  }

  /** `carregarConfiguracoes`: reads the URL, then the interval; the first
      read that throws ends the load, and `carregado` is set either way. */
  function Carregar(c: Config, store: Store, faults: Faults): (r: Config)
    ensures r.carregado
    ensures ChaveApiUrl in faults.failingReads ==> r == c.(carregado := true)
    ensures ChaveApiUrl !in faults.failingReads ==>
      r.apiUrl == if Present(store, ChaveApiUrl) then store[ChaveApiUrl] else c.apiUrl
    ensures ChaveApiUrl !in faults.failingReads && ChaveIntervalo !in faults.failingReads ==>
      r.intervaloEnvio == if Present(store, ChaveIntervalo) then ParseInt(store[ChaveIntervalo]) else c.intervaloEnvio
    ensures ChaveIntervalo in faults.failingReads ==> r.intervaloEnvio == c.intervaloEnvio
  {
    if ChaveApiUrl in faults.failingReads then c.(carregado := true)
    else
      var c1 := if Present(store, ChaveApiUrl) then c.(apiUrl := store[ChaveApiUrl]) else c;
      if ChaveIntervalo in faults.failingReads then c1.(carregado := true)
      else
        var c2 := if Present(store, ChaveIntervalo) then c1.(intervaloEnvio := ParseInt(store[ChaveIntervalo])) else c1;
        c2.(carregado := true)
  }

  datatype Saved = Saved(store: Store, config: Config, ok: bool)

  /** `salvarConfiguracoes(url, intervalo)`: writes the URL, then the
      interval as its decimal text, and only then updates memory. */
  function Salvar(c: Config, store: Store, faults: Faults, url: string, intervalo: int): (r: Saved)
    ensures r.ok <==> ChaveApiUrl !in faults.failingWrites && ChaveIntervalo !in faults.failingWrites
    ensures r.ok ==> r.config == c.(apiUrl := url, intervaloEnvio := Int(intervalo))
    ensures r.ok ==> r.store.Keys == store.Keys + {ChaveApiUrl, ChaveIntervalo}
    ensures r.ok ==> r.store[ChaveApiUrl] == url && r.store[ChaveIntervalo] == IntToString(intervalo)
    ensures !r.ok ==> r.config == c
    ensures ChaveApiUrl in faults.failingWrites ==> r.store == store
    ensures ChaveApiUrl !in faults.failingWrites && ChaveIntervalo in faults.failingWrites ==>
      r.store == store[ChaveApiUrl := url]
    ensures forall k :: k in store && k != ChaveApiUrl && k != ChaveIntervalo ==> k in r.store && r.store[k] == store[k]
  {
    assert ChaveApiUrl != ChaveIntervalo by {
      assert ChaveApiUrl[1] != ChaveIntervalo[1];
    }
    if ChaveApiUrl in faults.failingWrites then Saved(store, c, false)
    else
      var s1 := store[ChaveApiUrl := url];
      if ChaveIntervalo in faults.failingWrites then Saved(s1, c, false)
      else
        var s2 := s1[ChaveIntervalo := IntToString(intervalo)];
        Saved(s2, c.(apiUrl := url, intervaloEnvio := Int(intervalo)), true)
  }

  /** Saving and then loading on the next start gives back the saved values:
      the stored decimal text of the interval parses to the same integer.  An
      empty URL is stored too; loading skips it as falsy and keeps the
      default, which is the same empty text. */
  lemma SaveThenLoad(c: Config, store: Store, url: string, intervalo: int)
    ensures Carregar(Initial, Salvar(c, store, NoFaults, url, intervalo).store, NoFaults)
         == Config(url, Int(intervalo), true)
  {
    var saved := Salvar(c, store, NoFaults, url, intervalo).store;
    assert Present(saved, ChaveIntervalo) by {
      assert saved[ChaveIntervalo] == IntToString(intervalo);
    }
    ParseIntOfIntToString(intervalo);
  }

  /** A save whose second write fails reports failure and leaves memory as
      it was, yet the new URL is already on disk and wins on the next load. */
  lemma HalfSavedUrlSurvivesRestart(c: Config, store: Store, url: string, intervalo: int)
    ensures var r := Salvar(c, store, Faults({}, {ChaveIntervalo}), url, intervalo);
      && !r.ok && r.config == c
      && Carregar(Initial, r.store, NoFaults).apiUrl == url
  {
  }

  /** With nothing stored, loading keeps the defaults. */
  lemma LoadEmptyStoreKeepsDefaults(faults: Faults)
    ensures Carregar(Initial, map[], faults) == Initial.(carregado := true)
  {
  }

  /** A failing URL read skips the interval read too: there is no per-field
      fallback, so a stored interval is ignored. */
  lemma UrlReadFailureSkipsInterval(store: Store, faults: Faults)
    requires ChaveApiUrl in faults.failingReads
    ensures Carregar(Initial, store, faults).intervaloEnvio == Int(IntervaloPadrao)
    ensures Carregar(Initial, store, faults).apiUrl == ""
  {
  }
}

=== FILE: configscreen.dfy ===
/** The settings screen (`app/config.tsx`): the checks on the basic settings
    (server URL, send interval in minutes) and on the geofence (latitude,
    longitude, radius) before they are handed to the save call, and the
    password prompt that guards the geofence.  The save call itself is an
    input: it answers true, false, or throws. */
module ConfigScreen {

  import opened Common
  import opened JsText

  const AdminPassword: string := "admin123"

  /** A JavaScript number produced by `parseFloat`. */
  datatype Number = FNaN | Num(value: real)

  /** `parseFloat(s)` on decimal numerals: leading whitespace is skipped, an
      optional sign is read, then the longest `digits[.digits]` prefix; NaN
      when that prefix holds no digit. */
  function ParseFloat(s: string): Number
    decreases |s|
  {
    if s != [] && IsWhitespace(s[0]) then ParseFloat(s[1..])
    else if s != [] && s[0] == '-' then Negate(ParseUnsigned(s[1..]))
    else if s != [] && s[0] == '+' then ParseUnsigned(s[1..])
    else ParseUnsigned(s)
  }

  function Negate(n: Number): Number {
    if n.Num? then Num(-n.value) else FNaN
  }

  /** The numeral `digits[.digits]` at the start of `u`. */
  function ParseUnsigned(u: string): (r: Number)
    ensures r.Num? ==> r.value >= 0.0
  {
    var inteiro := DigitPrefix(u);
    var fracao := if |inteiro| < |u| && u[|inteiro|] == '.' then DigitPrefix(u[|inteiro| + 1..]) else [];
    if inteiro == [] && fracao == [] then FNaN
    else Num(DigitsValue(inteiro) as real + FractionValue(fracao))
  }

  /** The value of `0.fracao`: each digit weighs a tenth of the one before. */
  function FractionValue(fracao: string): (v: real)
    requires AllDigits(fracao)
    ensures 0.0 <= v < 1.0
  {
    if fracao == [] then 0.0 else (DigitValue(fracao[0]) as real + FractionValue(fracao[1..])) / 10.0
  }

  /** The fraction `0.b` is the integer `b` over ten to the number of its
      digits. */
  lemma {:induction false} FractionValueDigits(b: string)
    requires AllDigits(b)
    ensures FractionValue(b) == DigitsValue(b) as real / Pow10(|b|) as real
  {
    if b != [] {
      var d, rest, p := DigitValue(b[0]), DigitsValue(b[1..]), Pow10(|b| - 1);
      var n, q := DigitsValue(b), Pow10(|b|);
      assert FractionValue(b[1..]) == rest as real / p as real by {
        FractionValueDigits(b[1..]);
      }
      assert n == d * p + rest by {
        DigitsValueFront(b);
      }
      ShiftDigit(d, rest, p, n, q);
    }
  }

  /** One more leading digit of a fraction, in real arithmetic. */
  lemma ShiftDigit(d: nat, rest: nat, p: nat, n: nat, q: nat)
    requires p >= 1 && n == d * p + rest && q == 10 * p
    ensures (d as real + rest as real / p as real) / 10.0 == n as real / q as real
  {
    var pr := p as real;
    assert (d * p) as real == d as real * pr;
    assert q as real == 10.0 * pr;
    calc {
      (d as real + rest as real / pr) / 10.0;
      d as real / 10.0 + rest as real / (10.0 * pr);
      (d as real * pr + rest as real) / (10.0 * pr);
    }
  }

  /** The longest run of digits at the start of `a + rest` is `a` when
      `rest` starts with something else. */
  lemma {:induction false} DigitPrefixStops(a: string, rest: string)
    requires AllDigits(a) && rest != [] && !IsDigit(rest[0])
    ensures DigitPrefix(a + rest) == a
  {
    if a != [] {
      assert (a + rest)[1..] == a[1..] + rest;
      DigitPrefixStops(a[1..], rest);
    }
  }

  /** The unsigned numeral `a.b`. */
  lemma ParseUnsignedOfDecimal(a: string, b: string)
    requires AllDigits(a) && AllDigits(b)
    ensures a == [] && b == [] ==> ParseUnsigned(a + "." + b) == FNaN
    ensures a != [] || b != [] ==> ParseUnsigned(a + "." + b) == Num(DigitsValue(a) as real + FractionValue(b))
  {
    var u := a + "." + b;
    assert DigitPrefix(u) == a && |a| < |u| && u[|a|] == '.' && DigitPrefix(u[|a| + 1..]) == b by {
      assert u == a + ("." + b);
      DigitPrefixStops(a, "." + b);
      assert u[|a| + 1..] == b;
      DigitPrefixOfDigits(b);
    }
    ParseUnsignedSplit(u, a, b);
  }

  /** `ParseUnsigned` once its integer part `a` and fraction `b` are known. */
  lemma ParseUnsignedSplit(u: string, a: string, b: string)
    requires AllDigits(a) && AllDigits(b)
    requires DigitPrefix(u) == a && |a| < |u| && u[|a|] == '.' && DigitPrefix(u[|a| + 1..]) == b
    ensures a == [] && b == [] ==> ParseUnsigned(u) == FNaN
    ensures a != [] || b != [] ==> ParseUnsigned(u) == Num(DigitsValue(a) as real + FractionValue(b))
  {
  }

  /** A decimal numeral `a.b` reads as `a` plus the fraction `0.b`
      (which `FractionValueDigits` gives as `b` over a power of ten); a lone
      point is not a number. */
  lemma ParseFloatOfDecimal(a: string, b: string)
    requires AllDigits(a) && AllDigits(b)
    ensures a == [] && b == [] ==> ParseFloat(a + "." + b) == FNaN
    ensures a != [] || b != [] ==> ParseFloat(a + "." + b) == Num(DigitsValue(a) as real + FractionValue(b))
  {
    var u := a + "." + b;
    var c := u[0];
    assert c == '.' || IsDigit(c) by {
      if a != [] { assert c == a[0]; }
    }
    assert !IsWhitespace(c) && c != '-' && c != '+';
    assert ParseFloat(u) == ParseUnsigned(u);
    ParseUnsignedOfDecimal(a, b);
  }

  /** Blank text is not a number. */
  lemma {:induction false} ParseFloatBlank(s: string)
    requires AllWhitespace(s)
    ensures ParseFloat(s) == FNaN
  {
    if s != [] {
      ParseFloatBlank(s[1..]);
    } else {
      assert DigitPrefix(s) == [];
    }
  }

  /** A plain run of digits reads as the integer it spells. */
  lemma ParseFloatOfDigits(s: string)
    requires AllDigits(s) && s != []
    ensures ParseFloat(s) == Num(DigitsValue(s) as real)
  {
    assert IsDigit(s[0]);
    DigitPrefixOfDigits(s);
  }

  /** A minus sign in front of digits negates their value. */
  lemma ParseFloatOfNegative(s: string)
    requires AllDigits(s) && s != []
    ensures ParseFloat("-" + s) == Num(-(DigitsValue(s) as real))
  {
    assert ("-" + s)[1..] == s;
    assert IsDigit(s[0]);
    DigitPrefixOfDigits(s);
  }

  /** The number written as `n.toString()` reads back as `n`. */
  lemma ParseFloatOfNatToString(n: nat)
    ensures ParseFloat(NatToString(n)) == Num(n as real)
  {
    ParseFloatOfDigits(NatToString(n));
  }

  /** The save converts minutes to milliseconds ... */
  function MinutosParaMs(min: real): real {
    min * 60.0 * 1000.0
  }

  /** ... and the screen shows a stored interval as `ms / 1000 / 60`. */
  function MsParaMinutos(ms: real): real {
    ms / 1000.0 / 60.0
  }

  /** The two conversions are inverse to each other. */
  lemma MinutesMsInverse(x: real)
    ensures MsParaMinutos(MinutosParaMs(x)) == x
    ensures MinutosParaMs(MsParaMinutos(x)) == x
  {
  }

  /** The fields of the settings screen. */
  datatype Screen = Screen(
    url: string, intervalo: string, lat: string, lng: string, raio: string,
    isAuthenticated: bool, password: string, showPasswordInput: bool, salvando: bool)

  /** The object handed to the save call. */
  datatype SaveRequest =
    | Basico(apiUrl: string, intervaloEnvio: real)
    | Geofence(latitude: real, longitude: real, raio: real)

  /** How the save call settled: a boolean, or a rejection with a message. */
  datatype SaveAnswer = Saved(ok: bool) | SaveThrew(message: string)

  /** What a handler leaves behind: the fields, the alert shown if any, and
      the save request made if any. */
  datatype Effect = Effect(screen: Screen, alert: Option<Alert>, request: Option<SaveRequest>)

  const UrlObrigatoria: Alert := Alert("Erro", "Informe a URL da API")
  const IntervaloInvalido: Alert := Alert("Erro", "Informe um intervalo válido em minutos")
  const BasicoSalvo: Alert := Alert("Sucesso", "Configurações básicas salvas com sucesso!")
  const BasicoFalhou: Alert := Alert("Erro", "Falha ao salvar configurações.")
  const CoordenadasInvalidas: Alert := Alert("Erro", "Latitude, longitude e raio devem ser números válidos")
  const GeofenceSalva: Alert := Alert("Sucesso", "Geofence atualizada!")
  const GeofenceFalhou: Alert := Alert("Erro", "Falha ao salvar geofence localmente.")
  const SenhaIncorreta: Alert := Alert("Acesso negado", "Senha incorreta")

  /** The alert once the save call settles. */
  function Desfecho(answer: SaveAnswer, sucesso: Alert, falha: Alert): Alert {
    match answer
    case Saved(ok) => if ok then sucesso else falha
    case SaveThrew(m) => Alert("Erro", m)
  }

  /** A successful save is the only way to the success alert: the other
      answers all title their alert "Erro". */
  lemma DesfechoSucesso(answer: SaveAnswer, sucesso: Alert, falha: Alert)
    requires sucesso.title == "Sucesso" && falha.title == "Erro"
    ensures Desfecho(answer, sucesso, falha) == sucesso <==> answer == Saved(true)
  {
    assert "Sucesso"[0] != "Erro"[0];
  }

  /** `handleSalvarBasico` */
  function SalvarBasico(sc: Screen, answer: SaveAnswer): (r: Effect)
    ensures r.request.Some? <==>
      Trim(sc.url) != [] && ParseFloat(sc.intervalo).Num? && ParseFloat(sc.intervalo).value > 0.0
    ensures r.request.Some? ==>
      && r.request.value == Basico(Trim(sc.url), ParseFloat(sc.intervalo).value * 60000.0)
      && r.screen == sc.(salvando := false)
    ensures r.request.None? ==> r.screen == sc
    ensures Trim(sc.url) == [] ==> r.alert == Some(UrlObrigatoria)
    ensures Trim(sc.url) != [] && r.request.None? ==> r.alert == Some(IntervaloInvalido)
    ensures r.alert == Some(BasicoSalvo) <==> r.request.Some? && answer == Saved(true)
    ensures r.request.Some? && answer == Saved(false) ==> r.alert == Some(BasicoFalhou)
    ensures r.request.Some? && answer.SaveThrew? ==> r.alert == Some(Alert("Erro", answer.message))
  {
    var minutos := ParseFloat(sc.intervalo);
    if Trim(sc.url) == [] then Effect(sc, Some(UrlObrigatoria), None)
    else if minutos.FNaN? || minutos.value <= 0.0 then Effect(sc, Some(IntervaloInvalido), None)
    else
      DesfechoSucesso(answer, BasicoSalvo, BasicoFalhou);
      var ms := MinutosParaMs(minutos.value);
      assert ms == minutos.value * 60000.0;
      Effect(sc.(salvando := false), Some(Desfecho(answer, BasicoSalvo, BasicoFalhou)),
             Some(Basico(Trim(sc.url), ms)))
  }

  /** `handleSalvarGeofence`: without the password only the prompt opens;
      the coordinates must be numbers, but nothing bounds them or the
      radius; a successful save forgets the password. */
  function SalvarGeofence(sc: Screen, answer: SaveAnswer): (r: Effect)
    ensures !sc.isAuthenticated ==> r == Effect(sc.(showPasswordInput := true), None, None)
    ensures r.request.Some? <==>
      sc.isAuthenticated && ParseFloat(sc.lat).Num? && ParseFloat(sc.lng).Num? && ParseFloat(sc.raio).Num?
    ensures r.request.Some? ==>
      r.request.value == Geofence(ParseFloat(sc.lat).value, ParseFloat(sc.lng).value, ParseFloat(sc.raio).value)
    ensures sc.isAuthenticated && r.request.None? ==> r == Effect(sc, Some(CoordenadasInvalidas), None)
    ensures r.alert == Some(GeofenceSalva) <==> r.request.Some? && answer == Saved(true)
    ensures r.alert == Some(GeofenceSalva) ==>
      !r.screen.isAuthenticated && !r.screen.showPasswordInput && r.screen.password == []
    ensures sc.isAuthenticated && r.alert != Some(GeofenceSalva) ==>
      r.screen.isAuthenticated && r.screen.password == sc.password
    ensures r.alert == Some(GeofenceSalva) ==>
      r.screen == sc.(isAuthenticated := false, showPasswordInput := false, password := [], salvando := false)
    ensures r.request.Some? && answer != Saved(true) ==> r.screen == sc.(salvando := false)
    ensures r.request.Some? && answer == Saved(false) ==> r.alert == Some(GeofenceFalhou)
    ensures r.request.Some? && answer.SaveThrew? ==> r.alert == Some(Alert("Erro", answer.message))
  {
    if !sc.isAuthenticated then Effect(sc.(showPasswordInput := true), None, None)
    else
      var lat := ParseFloat(sc.lat);
      var lng := ParseFloat(sc.lng);
      var raio := ParseFloat(sc.raio);
      if lat.FNaN? || lng.FNaN? || raio.FNaN? then Effect(sc, Some(CoordenadasInvalidas), None)
      else
        DesfechoSucesso(answer, GeofenceSalva, GeofenceFalhou);
        var request := Some(Geofence(lat.value, lng.value, raio.value));
        if answer == Saved(true) then
          Effect(sc.(isAuthenticated := false, showPasswordInput := false, password := [], salvando := false),
                 Some(GeofenceSalva), request)
        else
          Effect(sc.(salvando := false), Some(Desfecho(answer, GeofenceSalva, GeofenceFalhou)), request)
  }

  /** `verificarSenha` */
  function VerificarSenha(sc: Screen): (r: Effect)
    ensures r.request == None
    ensures r.screen.isAuthenticated <==> sc.password == AdminPassword || sc.isAuthenticated
    ensures sc.password == AdminPassword ==>
      r == Effect(sc.(isAuthenticated := true, showPasswordInput := false, password := []), None, None)
    ensures sc.password != AdminPassword ==> r == Effect(sc, Some(SenhaIncorreta), None)
  {
    if sc.password == AdminPassword then
      Effect(sc.(isAuthenticated := true, showPasswordInput := false, password := []), None, None)
    else Effect(sc, Some(SenhaIncorreta), None)
  }

  /** The password opens the geofence for one successful save only: the
      next save opens the prompt again. */
  lemma PasswordIsSingleUse(sc: Screen, next: SaveAnswer)
    requires sc.password == AdminPassword
    requires ParseFloat(sc.lat).Num? && ParseFloat(sc.lng).Num? && ParseFloat(sc.raio).Num?
    ensures var e := SalvarGeofence(VerificarSenha(sc).screen, Saved(true));
      && e.request.Some?
      && SalvarGeofence(e.screen, next).request == None
      && SalvarGeofence(e.screen, next).screen.showPasswordInput
  {
  }

  /** A whole number of minutes, as typed, is sent as that many minutes of
      milliseconds. */
  lemma WholeMinutesSaved(sc: Screen, n: nat, answer: SaveAnswer)
    requires Trim(sc.url) != [] && sc.intervalo == NatToString(n) && n > 0
    ensures SalvarBasico(sc, answer).request.Some?
    ensures SalvarBasico(sc, answer).request.value.apiUrl == Trim(sc.url)
    ensures SalvarBasico(sc, answer).request.value.intervaloEnvio == n as real * 60000.0
  {
    ParseFloatOfNatToString(n);
  }

  /** Any interval text that parses to a positive number of minutes is sent
      with the trimmed URL, in milliseconds; with `ParseFloatOfDigits` and
      `ParseFloatOfDecimal` this covers whole and decimal minutes alike. */
  lemma PositiveMinutesSaved(sc: Screen, v: real, answer: SaveAnswer)
    requires Trim(sc.url) != [] && ParseFloat(sc.intervalo) == Num(v) && v > 0.0
    ensures SalvarBasico(sc, answer).request == Some(Basico(Trim(sc.url), v * 60000.0))
  {
    var r := SalvarBasico(sc, answer);
    assert r.request.Some?;
  }

  /** An instance: half a minute, "0.5", is sent as 30000 ms. */
  lemma HalfMinuteSaved(sc: Screen, answer: SaveAnswer)
    requires Trim(sc.url) != [] && sc.intervalo == "0.5"
    ensures SalvarBasico(sc, answer).request == Some(Basico(Trim(sc.url), 30000.0))
  {
    ParseFloatHalf();
    PositiveMinutesSaved(sc, 0.5, answer);
  }

  /** "0.5" reads as one half. */
  lemma ParseFloatHalf()
    ensures ParseFloat("0.5") == Num(0.5)
  {
    assert "0.5" == "0" + "." + "5";
    assert DigitsValue("0") == 0 && DigitsValue("5") == 5;
    assert FractionValue("5") == 0.5 by {
      FractionValueDigits("5");
    }
    ParseFloatOfDecimal("0", "5");
  }

  /** Zero minutes, written with any number of zeros, is refused like any
      non-positive interval. */
  lemma ZeroMinutesRefused(sc: Screen, answer: SaveAnswer)
    requires Trim(sc.url) != [] && AllDigits(sc.intervalo) && sc.intervalo != []
    requires DigitsValue(sc.intervalo) == 0
    ensures SalvarBasico(sc, answer) == Effect(sc, Some(IntervaloInvalido), None)
  {
    ParseFloatOfDigits(sc.intervalo);
  }

  /** A negative whole number of minutes is refused. */
  lemma NegativeMinutesRefused(sc: Screen, digits: string, answer: SaveAnswer)
    requires Trim(sc.url) != [] && AllDigits(digits) && digits != [] && sc.intervalo == "-" + digits
    ensures SalvarBasico(sc, answer) == Effect(sc, Some(IntervaloInvalido), None)
  {
    ParseFloatOfNegative(digits);
  }

  /** No bound is placed on the radius: a negative radius is sent as it is,
      next to any coordinates that parse. */
  lemma NegativeRadiusAccepted(sc: Screen, digits: string, answer: SaveAnswer)
    requires sc.isAuthenticated && ParseFloat(sc.lat).Num? && ParseFloat(sc.lng).Num?
    requires AllDigits(digits) && digits != [] && sc.raio == "-" + digits
    ensures SalvarGeofence(sc, answer).request
         == Some(Geofence(ParseFloat(sc.lat).value, ParseFloat(sc.lng).value, -(DigitsValue(digits) as real)))
  {
    ParseFloatOfNegative(digits);
  }
}

=== FILE: cores.dfy ===
/** The colour band of a waiting time, as the helper in `utils/cores.js`
    computes it.  The helper stands on its own: the entry card colours its
    entries by status and its timer in a fixed colour, and does not call it. */
module Cores {

  const LimiteLaranja: int := 1800   // 30 minutes, in seconds
  const LimiteVermelho: int := 3600  // 60 minutes, in seconds

  /** The colour names the application returns: 'black', 'orange', 'red'. */
  datatype Cor = Black | Orange | Red

  /** How alarming a colour is. */
  function Gravidade(c: Cor): nat {
    match c
    case Black => 0
    case Orange => 1
    case Red => 2
  }

  /** `corPorTempo(tempoSegundos)`: both thresholds are inclusive. */
  function CorPorTempo(tempoSegundos: int): (c: Cor)
    ensures c == Red <==> tempoSegundos >= 3600
    ensures c == Orange <==> 1800 <= tempoSegundos < 3600
    ensures c == Black <==> tempoSegundos < 1800
  {
    if tempoSegundos >= LimiteVermelho then Red
    else if tempoSegundos >= LimiteLaranja then Orange
    else Black
  }

  /** A longer wait is never shown in a less alarming colour. */
  lemma GravidadeMonotone(a: int, b: int)
    requires a <= b
    ensures Gravidade(CorPorTempo(a)) <= Gravidade(CorPorTempo(b))
  {
  }
}

=== FILE: fila.dfy ===
/** The queue screen's sections (`app/fila.tsx`) and the waiting preview of
    the arrival screen (`app/index.tsx`): both are views of the roster. */
module Fila {

  import opened Motoristas
  import Ordenacao

  /** A section of the queue list: the status it gathers, its heading and
      its entries. */
  datatype Secao = Secao(status: Status, title: string, data: seq<Motorista>)

  function Title(st: Status): string {
    match st
    case Aguardando => "\U{23F3} Aguardando"
    case Descarregando => "\U{1F4E6} Descarregando"
    case Descarregado => "\U{2705} Finalizados"
  }

  /** The fixed position of each status in the list. */
  function Rank(st: Status): nat {
    match st
    case Aguardando => 0
    case Descarregando => 1
    case Descarregado => 2
  }

  /** `ms.filter(m => m.status === st)` */
  function WithStatus(ms: seq<Motorista>, st: Status): (r: seq<Motorista>)
    ensures forall i :: 0 <= i < |r| ==> r[i].rec.status == st
  {
    if ms == [] then []
    else (if ms[0].rec.status == st then [ms[0]] else []) + WithStatus(ms[1..], st)
  }

  /** The filter keeps every copy of each entry with status `st` and no
      other entry. */
  lemma {:induction false} WithStatusCounts(ms: seq<Motorista>, st: Status)
    ensures forall m :: multiset(WithStatus(ms, st))[m] == if m.rec.status == st then multiset(ms)[m] else 0
  {
    if ms != [] {
      assert ms == [ms[0]] + ms[1..];
      WithStatusCounts(ms[1..], st);
    }
  }

  /** Some entry has status `st` exactly when the filtered list is non-empty. */
  lemma {:induction false} WithStatusNonEmptyIff(ms: seq<Motorista>, st: Status)
    ensures |WithStatus(ms, st)| > 0 <==> exists k :: 0 <= k < |ms| && ms[k].rec.status == st
  {
    if ms != [] {
      var rest := ms[1..];
      WithStatusNonEmptyIff(rest, st);
      assert WithStatus(ms, st) == (if ms[0].rec.status == st then [ms[0]] else []) + WithStatus(rest, st);
      if ms[0].rec.status == st {
        assert |WithStatus(ms, st)| > 0;
      } else {
        assert WithStatus(ms, st) == WithStatus(rest, st);
        if exists k :: 0 <= k < |ms| && ms[k].rec.status == st {
          var k :| 0 <= k < |ms| && ms[k].rec.status == st;
          assert rest[k - 1] == ms[k];
        }
        if exists k :: 0 <= k < |rest| && rest[k].rec.status == st {
          var k :| 0 <= k < |rest| && rest[k].rec.status == st;
          assert ms[k + 1] == rest[k];
        }
      }
    }
  }

  /** Reordering a list whose entries all have status `st` keeps that so. */
  lemma SameStatusAfterPermutation(a: seq<Motorista>, b: seq<Motorista>, st: Status)
    requires forall i :: 0 <= i < |a| ==> a[i].rec.status == st
    requires multiset(a) == multiset(b)
    ensures forall k :: 0 <= k < |b| ==> b[k].rec.status == st
  {
    forall k | 0 <= k < |b|
      ensures b[k].rec.status == st
    {
      assert b[k] in multiset(a);
      var j :| 0 <= j < |a| && a[j] == b[k];
    }
  }

  /** One section before the empty-section filter: the entries with that
      status, the finished ones most recent first, the others oldest first. */
  function SecaoDe(ms: seq<Motorista>, st: Status): (sec: Secao)
    ensures sec.status == st && sec.title == Title(st)
    ensures forall k :: 0 <= k < |sec.data| ==> sec.data[k].rec.status == st
    ensures st != Descarregado ==> Ordenacao.Ascending(sec.data)
    ensures st == Descarregado ==> Ordenacao.Descending(sec.data)
    ensures multiset(sec.data) == multiset(WithStatus(ms, st))
  {
    var data := Ordenacao.Sort(WithStatus(ms, st), st == Descarregado);
    SameStatusAfterPermutation(WithStatus(ms, st), data, st);
    Ordenacao.SortedAscending(data);
    Ordenacao.SortedDescending(data);
    Secao(st, Title(st), data)
  }

  /** A one-section list when the section has entries, otherwise nothing. */
  function IfNonEmpty(sec: Secao): seq<Secao> {
    if |sec.data| > 0 then [sec] else []
  }

  /** `.filter(section => section.data.length > 0)` */
  function KeepNonEmpty(secs: seq<Secao>): seq<Secao> {
    if secs == [] then [] else IfNonEmpty(secs[0]) + KeepNonEmpty(secs[1..])
  }

  /** `secoes`: the three sections in fixed order, the empty ones dropped;
      an empty roster therefore has no section (`SectionPresentIff`). */
  function Secoes(ms: seq<Motorista>): (r: seq<Secao>)
    ensures forall i :: 0 <= i < |r| ==> r[i] == SecaoDe(ms, r[i].status) && |r[i].data| > 0
    ensures forall i, j :: 0 <= i < j < |r| ==> Rank(r[i].status) < Rank(r[j].status)
  {
    var a := SecaoDe(ms, Aguardando);
    var d := SecaoDe(ms, Descarregando);
    var f := SecaoDe(ms, Descarregado);
    KeepThree(a, d, f);
    KeepNonEmpty([a, d, f])
  }

  /** Filtering the three fixed sections keeps them in their order. */
  lemma KeepThree(a: Secao, d: Secao, f: Secao)
    requires a.status == Aguardando && d.status == Descarregando && f.status == Descarregado
    ensures KeepNonEmpty([a, d, f]) == IfNonEmpty(a) + IfNonEmpty(d) + IfNonEmpty(f)
    ensures var r := KeepNonEmpty([a, d, f]);
      && (forall i :: 0 <= i < |r| ==> (r[i] == a || r[i] == d || r[i] == f) && |r[i].data| > 0)
      && (forall i, j :: 0 <= i < j < |r| ==> Rank(r[i].status) < Rank(r[j].status))
  {
    assert [a, d, f][1..] == [d, f] && [d, f][1..] == [f] && [f][1..] == [];
    assert KeepNonEmpty([f]) == IfNonEmpty(f) + KeepNonEmpty([]);
    assert KeepNonEmpty([d, f]) == IfNonEmpty(d) + KeepNonEmpty([f]);
    assert KeepNonEmpty([a, d, f]) == IfNonEmpty(a) + KeepNonEmpty([d, f]);
  }

  /** All entries of all sections, section after section. */
  function Flatten(secs: seq<Secao>): seq<Motorista> {
    if secs == [] then [] else secs[0].data + Flatten(secs[1..])
  }

  /** The three statuses split the roster: every entry lands in exactly one
      of the three filtered lists. */
  lemma StatusPartition(ms: seq<Motorista>)
    ensures multiset(WithStatus(ms, Aguardando)) + multiset(WithStatus(ms, Descarregando))
          + multiset(WithStatus(ms, Descarregado)) == multiset(ms)
  {
    var a := WithStatus(ms, Aguardando);
    var d := WithStatus(ms, Descarregando);
    var f := WithStatus(ms, Descarregado);
    forall m: Motorista
      ensures (multiset(a) + multiset(d) + multiset(f))[m] == multiset(ms)[m]
    {
      CountOnce(ms, m);
    }
  }

  /** Each entry is counted by exactly one of the three filters. */
  lemma CountOnce(ms: seq<Motorista>, m: Motorista)
    ensures multiset(WithStatus(ms, Aguardando))[m] + multiset(WithStatus(ms, Descarregando))[m]
          + multiset(WithStatus(ms, Descarregado))[m] == multiset(ms)[m]
  {
    WithStatusCounts(ms, Aguardando);
    WithStatusCounts(ms, Descarregando);
    WithStatusCounts(ms, Descarregado);
  }

  /** The sections together hold the roster, each entry once: no entry is
      lost by the empty-section filter or counted twice. */
  lemma SectionsCoverRoster(ms: seq<Motorista>)
    ensures multiset(Flatten(Secoes(ms))) == multiset(ms)
  {
    var a := SecaoDe(ms, Aguardando);
    var d := SecaoDe(ms, Descarregando);
    var f := SecaoDe(ms, Descarregado);
    var r := Secoes(ms);
    KeepThree(a, d, f);
    assert multiset(Flatten(r)) == multiset(a.data) + multiset(d.data) + multiset(f.data) by {
      FlattenAppend(IfNonEmpty(a), IfNonEmpty(d));
      FlattenAppend(IfNonEmpty(a) + IfNonEmpty(d), IfNonEmpty(f));
      FlattenIfNonEmpty(a);
      FlattenIfNonEmpty(d);
      FlattenIfNonEmpty(f);
    }
    StatusPartition(ms);
  }

  lemma FlattenIfNonEmpty(sec: Secao)
    ensures Flatten(IfNonEmpty(sec)) == sec.data
  {
    if |sec.data| > 0 {
      assert Flatten([sec]) == sec.data + Flatten([]);
    }
  }

  lemma {:induction false} FlattenAppend(x: seq<Secao>, y: seq<Secao>)
    ensures Flatten(x + y) == Flatten(x) + Flatten(y)
  {
    if x != [] {
      assert (x + y)[1..] == x[1..] + y;
      FlattenAppend(x[1..], y);
    } else {
      assert x + y == y;
    }
  }

  /** A status has a section exactly when some entry has that status; in
      particular an empty roster has no sections. */
  lemma SectionPresentIff(ms: seq<Motorista>, st: Status)
    ensures (exists i :: 0 <= i < |Secoes(ms)| && Secoes(ms)[i].status == st)
        <==> (exists k :: 0 <= k < |ms| && ms[k].rec.status == st)
  {
    var r := Secoes(ms);
    var sec := SecaoDe(ms, st);
    var w := WithStatus(ms, st);
    KeepThree(SecaoDe(ms, Aguardando), SecaoDe(ms, Descarregando), SecaoDe(ms, Descarregado));
    assert |sec.data| == |w| by {
      assert |multiset(sec.data)| == |multiset(w)|;
    }
    WithStatusNonEmptyIff(ms, st);
    if |w| > 0 {
      assert sec in r by {
        match st
        case Aguardando =>
        case Descarregando =>
        case Descarregado =>
      }
    }
  }

  /** `motoristas.filter(m => m.status === 'aguardando').slice(0, 3)`: the
      first three waiting entries, in roster order. */
  function Proximos(ms: seq<Motorista>): (r: seq<Motorista>)
    ensures |r| <= 3
    ensures |r| == if |WithStatus(ms, Aguardando)| < 3 then |WithStatus(ms, Aguardando)| else 3
    ensures forall i :: 0 <= i < |r| ==> r[i].rec.status == Aguardando
    ensures r == WithStatus(ms, Aguardando)[..|r|]
  {
    var w := WithStatus(ms, Aguardando);
    if |w| < 3 then w else w[..3]
  }
}

=== FILE: jstext.dfy ===
/** Values shared by every module: an optional value, in the style of a
    nullable JavaScript property, and the alert dialog. */
module Common {

  datatype Option<+T> = None | Some(value: T)

  /** `Alert.alert(title, message)`: the dialog a screen shows. */
  datatype Alert = Alert(title: string, message: string)
}

/** The handful of JavaScript string and number primitives the application
    leans on: `trim`, `Number.prototype.toString` on integers, `parseInt(s, 10)`
    and `padStart(2, '0')`.  Strings are sequences of Unicode scalar values. */
module JsText {

  import opened Common

  /** A JavaScript number produced by `parseInt`: either NaN or an integer. */
  datatype JsInt = NaN | Int(value: int)

  predicate IsDigit(c: char) {
    '0' <= c <= '9'
  }

  predicate AllDigits(s: string) {
    forall i :: 0 <= i < |s| ==> IsDigit(s[i])
  }

  /** The characters `String.prototype.trim` and `parseInt` skip: the
      ECMAScript WhiteSpace and LineTerminator productions. */
  predicate IsWhitespace(c: char) {
    || c == '\t' || c == '\n' || c == '\U{000B}' || c == '\U{000C}' || c == '\r'
    || c == ' ' || c == '\U{00A0}' || c == '\U{1680}'
    || ('\U{2000}' <= c <= '\U{200A}')
    || c == '\U{2028}' || c == '\U{2029}' || c == '\U{202F}' || c == '\U{205F}'
    || c == '\U{3000}' || c == '\U{FEFF}'
  }

  predicate AllWhitespace(s: string) {
    forall i :: 0 <= i < |s| ==> IsWhitespace(s[i])
  }

  function DigitValue(c: char): (d: nat)
    requires IsDigit(c)
    ensures d < 10
  {
    c as int - '0' as int
  }

  function DigitChar(d: nat): (c: char)
    requires d < 10
    ensures IsDigit(c) && DigitValue(c) == d
  {
    ('0' as int + d) as char
  }

  /** The value of a string of decimal digits, most significant first;
      leading zeros are allowed, the empty string is worth 0. */
  function DigitsValue(s: string): nat
    requires AllDigits(s)
  {
    if s == [] then 0 else 10 * DigitsValue(s[..|s| - 1]) + DigitValue(s[|s| - 1])
  }

  /** The value of a numeral read from its first digit: that digit weighs
      ten to the number of digits after it. */
  lemma {:induction false} DigitsValueFront(s: string)
    requires AllDigits(s) && s != []
    ensures DigitsValue(s) == DigitValue(s[0]) * Pow10(|s| - 1) + DigitsValue(s[1..])
  {
    if |s| > 1 {
      var t, c := s[..|s| - 1], DigitValue(s[|s| - 1]);
      var d, p := DigitValue(s[0]), Pow10(|t| - 1);
      assert DigitsValue(t) == d * p + DigitsValue(t[1..]) by {
        DigitsValueFront(t);
      }
      assert DigitsValue(s) == 10 * DigitsValue(t) + c;
      assert DigitsValue(s[1..]) == 10 * DigitsValue(t[1..]) + c by {
        assert s[1..][..|s[1..]| - 1] == t[1..];
        assert s[1..][|s[1..]| - 1] == s[|s| - 1];
      }
      assert Pow10(|s| - 1) == 10 * p;
      FrontStep(d, p, DigitsValue(t), DigitsValue(t[1..]), c);
    }
  }

  /** Appending a digit `c` to both sides of `a == d * p + b` scales the
      weight of the leading digit by ten. */
  lemma FrontStep(d: nat, p: nat, a: nat, b: nat, c: nat)
    requires a == d * p + b
    ensures 10 * a + c == d * (10 * p) + (10 * b + c)
  {
  }

  /** Ten to the power `n`. */
  function Pow10(n: nat): (p: nat)
    ensures p >= 1
  {
    if n == 0 then 1 else 10 * Pow10(n - 1)
  }

  /** A canonical decimal numeral: digits only, no leading zero unless it is "0". */
  predicate Canonical(s: string) {
    |s| >= 1 && AllDigits(s) && (|s| > 1 ==> s[0] != '0')
  }

  /** `n.toString()` for a non-negative integer `n`. */
  function NatToString(n: nat): (s: string)
    ensures Canonical(s)
    ensures DigitsValue(s) == n
    ensures n < 10 <==> |s| == 1
  {
    if n < 10 then [DigitChar(n)]
    else
      var front := NatToString(n / 10);
      var s := front + [DigitChar(n % 10)];
      assert s[..|s| - 1] == front;
      s
  }

  lemma {:induction false} LeadingNonZeroPositive(s: string)
    requires AllDigits(s) && s != [] && s[0] != '0'
    ensures DigitsValue(s) >= 1
  {
    if |s| == 1 {
      assert s[..0] == [];
    } else {
      LeadingNonZeroPositive(s[..|s| - 1]);
    }
  }

  lemma DivModTen(a: nat, d: nat)
    requires d < 10
    ensures (10 * a + d) / 10 == a && (10 * a + d) % 10 == d
  {
  }

  /** Canonical numerals and naturals are in one-to-one correspondence:
      `toString` is the inverse of reading a canonical numeral back. */
  lemma {:induction false} CanonicalIsNatToString(s: string)
    requires Canonical(s)
    ensures NatToString(DigitsValue(s)) == s
  {
    var n := DigitsValue(s);
    if |s| == 1 {
      assert s[..0] == [];
      assert DigitsValue(s) == DigitValue(s[0]);
      assert [DigitChar(DigitValue(s[0]))] == s;
    } else {
      var front := s[..|s| - 1];
      var last := s[|s| - 1];
      LeadingNonZeroPositive(front);
      DivModTen(DigitsValue(front), DigitValue(last));
      assert n >= 10;
      CanonicalIsNatToString(front);
      assert DigitChar(DigitValue(last)) == last;
      assert NatToString(n) == NatToString(n / 10) + [DigitChar(n % 10)];
      assert s == front + [last];
    }
  }

  /** `i.toString()` for an integer `i` below 10^21 in magnitude, where
      JavaScript writes every digit; from 10^21 on it switches to exponent
      notation, which is not modelled. */
  function IntToString(i: int): (s: string)
    ensures |s| >= 1
    ensures i >= 0 <==> s[0] != '-'
  {
    if i < 0 then "-" + NatToString(-i) else NatToString(i)
  }

  /** Removes leading whitespace (`trimStart`). */
  function TrimStart(s: string): (r: string)
    ensures |r| <= |s| && r == s[|s| - |r|..]
    ensures r != [] ==> !IsWhitespace(r[0])
  {
    if s != [] && IsWhitespace(s[0]) then TrimStart(s[1..]) else s
  }

  /** Everything `TrimStart` drops is whitespace. */
  lemma {:induction false} TrimStartDropsWhitespace(s: string)
    ensures AllWhitespace(s[..|s| - |TrimStart(s)|])
  {
    if s != [] && IsWhitespace(s[0]) {
      var k := |s| - |TrimStart(s)|;
      TrimStartDropsWhitespace(s[1..]);
      assert s[..k] == [s[0]] + s[1..][..k - 1];
    }
  }

  /** Removes trailing whitespace (`trimEnd`). */
  function TrimEnd(s: string): (r: string)
    ensures |r| <= |s| && r == s[..|r|]
    ensures r != [] ==> !IsWhitespace(r[|r| - 1])
  {
    if s != [] && IsWhitespace(s[|s| - 1]) then TrimEnd(s[..|s| - 1]) else s
  }

  /** Everything `TrimEnd` drops is whitespace. */
  lemma {:induction false} TrimEndDropsWhitespace(s: string)
    ensures AllWhitespace(s[|TrimEnd(s)|..])
  {
    if s != [] && IsWhitespace(s[|s| - 1]) {
      var k := |TrimEnd(s)|;
      var init := s[..|s| - 1];
      TrimEndDropsWhitespace(init);
      assert s[k..] == init[k..] + [s[|s| - 1]];
    }
  }

  /** `String.prototype.trim`. */
  function Trim(s: string): (r: string)
    ensures var k := |s| - |TrimStart(s)|; k + |r| <= |s| && r == s[k..k + |r|]
    ensures r != [] ==> !IsWhitespace(r[0])
    ensures r != [] ==> !IsWhitespace(r[|r| - 1])
  {
    var t := TrimStart(s);
    var r := TrimEnd(t);
    PrefixOfSuffix(s, |s| - |t|, |r|);
    r
  }

  /** `trim` drops whitespace only: `s` is the whitespace `trim` cut from
      the front, then `s.trim()`, then the whitespace it cut from the back. */
  lemma TrimDropsOnlyWhitespace(s: string)
    ensures var k := |s| - |TrimStart(s)|; var r := Trim(s);
      && AllWhitespace(s[..k]) && AllWhitespace(s[k + |r|..])
      && s == s[..k] + r + s[k + |r|..]
  {
    var t := TrimStart(s);
    var k, r := |s| - |t|, Trim(s);
    assert AllWhitespace(s[..k]) by {
      TrimStartDropsWhitespace(s);
    }
    assert AllWhitespace(s[k + |r|..]) by {
      assert r == TrimEnd(t);
      TrimEndDropsWhitespace(t);
      assert s[k + |r|..] == t[|r|..];
    }
    Reassemble(s, k, |r|);
  }

  lemma Reassemble(s: string, i: nat, n: nat)
    requires i + n <= |s|
    ensures s == s[..i] + s[i..i + n] + s[i + n..]
  {
  }

  lemma PrefixOfSuffix(s: string, k: nat, n: nat)
    requires k + n <= |s|
    ensures s[k..][..n] == s[k..k + n]
    ensures n > 0 ==> s[k..][..n][0] == s[k..][0]
  {
  }

  lemma AllWhitespaceAppend(a: string, b: string)
    requires AllWhitespace(a) && AllWhitespace(b)
    ensures AllWhitespace(a + b)
  {
  }

  /** A string trims to the empty string exactly when it is all whitespace,
      which is when JavaScript treats `s.trim()` as falsy. */
  lemma TrimEmptyIff(s: string)
    ensures Trim(s) == [] <==> AllWhitespace(s)
  {
    var t := TrimStart(s);
    var k := |s| - |t|;
    if Trim(s) == [] {
      TrimStartDropsWhitespace(s);
      TrimEndDropsWhitespace(t);
      assert t[0..] == t;
      assert s == s[..k] + t;
      AllWhitespaceAppend(s[..k], t);
    } else {
      assert Trim(s)[0] == s[k];
    }
  }

  /** The longest prefix of `s` made of decimal digits. */
  function DigitPrefix(s: string): (r: string)
    ensures AllDigits(r) && |r| <= |s| && r == s[..|r|]
    ensures |r| < |s| ==> !IsDigit(s[|r|])
  {
    if s != [] && IsDigit(s[0]) then [s[0]] + DigitPrefix(s[1..]) else []
  }

  /** `parseInt(s, 10)`: skips leading whitespace, reads an optional sign and
      the longest run of digits after it; NaN when there is no digit. */
  function ParseInt(s: string): (r: JsInt)
    ensures r.NaN? <==> DigitPrefix(UnsignedPart(TrimStart(s))) == []
    ensures r.Int? && r.value < 0 ==> TrimStart(s)[0] == '-'
    ensures r.Int? && TrimStart(s)[0] == '-' ==> r.value <= 0
  {
    var t := TrimStart(s);
    var negative := t != [] && t[0] == '-';
    var digits := DigitPrefix(UnsignedPart(t));
    if digits == [] then NaN
    else if negative then Int(-(DigitsValue(digits) as int))
    else Int(DigitsValue(digits))
  }

  /** What follows an optional leading `+` or `-`. */
  function UnsignedPart(t: string): (r: string)
    ensures r == t || (t != [] && (t[0] == '-' || t[0] == '+') && r == t[1..])
  {
    if t != [] && (t[0] == '-' || t[0] == '+') then t[1..] else t
  }

  lemma DigitPrefixOfDigits(s: string)
    requires AllDigits(s)
    ensures DigitPrefix(s) == s
  {
    var r := DigitPrefix(s);
    if |r| < |s| {
      assert false;
    }
  }

  /** `parseInt(i.toString(), 10) == i` for integers written out in full
      (below 10^21 in magnitude): the stored form of an integer setting
      reads back as the same integer. */
  lemma ParseIntOfIntToString(i: int)
    ensures ParseInt(IntToString(i)) == Int(i)
  {
    var s := IntToString(i);
    var digits := NatToString(if i < 0 then -i else i);
    assert !IsWhitespace(s[0]);
    assert TrimStart(s) == s;
    assert UnsignedPart(s) == digits by {
      if i < 0 {
        assert s == "-" + digits;
      } else {
        assert IsDigit(s[0]);
      }
    }
    DigitPrefixOfDigits(digits);
  }

  /** `s.padStart(2, '0')`. */
  function PadStart2(s: string): (r: string)
    ensures |r| == if |s| < 2 then 2 else |s|
    ensures r[|r| - |s|..] == s
    ensures forall i :: 0 <= i < |r| - |s| ==> r[i] == '0'
  {
    if |s| == 0 then "00" else if |s| == 1 then "0" + s else s
  }

  /** Reading a zero-padded numeral gives back the number it pads. */
  lemma {:induction false} DigitsValueLeadingZero(s: string)
    requires AllDigits(s)
    ensures AllDigits("0" + s) && DigitsValue("0" + s) == DigitsValue(s)
  {
    var z := "0" + s;
    if s != [] {
      assert z[..|z| - 1] == "0" + s[..|s| - 1];
      DigitsValueLeadingZero(s[..|s| - 1]);
    } else {
      assert z == "0";
    }
  }

  lemma PadStart2Value(n: nat)
    ensures AllDigits(PadStart2(NatToString(n)))
    ensures DigitsValue(PadStart2(NatToString(n))) == n
  {
    var s := NatToString(n);
    if |s| == 1 {
      DigitsValueLeadingZero(s);
    }
  }
}

=== FILE: masks.dfy ===
/** The CPF input mask (`utils/masks.ts`): strip everything but digits, then
    let three regular-expression replacements insert the dots and the dash
    of `DDD.DDD.DDD-DD`, then cut at 14 characters.  Each replacement is
    modelled as the regular expression engine runs it (leftmost match, first
    match only); `Shape` gives the result case by case on the number of
    digits, and the two are proved equal. */
module Masks {

  import opened Common
  import opened JsText

  /** `s.replace(/\D/g, '')`: the ASCII digits of `s`, in order. */
  function OnlyDigits(s: string): (r: string)
    ensures AllDigits(r) && |r| <= |s|
  {
    if s == [] then [] else (if IsDigit(s[0]) then [s[0]] else []) + OnlyDigits(s[1..])
  }

  lemma {:induction false} OnlyDigitsOfDigits(s: string)
    requires AllDigits(s)
    ensures OnlyDigits(s) == s
  {
    if s != [] {
      OnlyDigitsOfDigits(s[1..]);
    }
  }

  lemma {:induction false} OnlyDigitsAppend(a: string, b: string)
    ensures OnlyDigits(a + b) == OnlyDigits(a) + OnlyDigits(b)
  {
    if a == [] {
      assert a + b == b;
    } else {
      assert (a + b)[1..] == a[1..] + b;
      OnlyDigitsAppend(a[1..], b);
    }
  }

  /** `(\d{3})(\d)` matches at `p`: four digits in a row start there. */
  predicate RunOf4At(s: string, p: nat) {
    p + 4 <= |s| && AllDigits(s[p..p + 4])
  }

  /** The leftmost position at or after `from` where `(\d{3})(\d)` matches. */
  function FirstRunOf4(s: string, from: nat): (r: Option<nat>)
    decreases |s| - from
    ensures r.Some? ==>
      && from <= r.value && RunOf4At(s, r.value)
      && forall q :: from <= q < r.value ==> !RunOf4At(s, q)
    ensures r.None? ==> forall q :: from <= q ==> !RunOf4At(s, q)
  {
    if from + 4 > |s| then None
    else if RunOf4At(s, from) then Some(from)
    else FirstRunOf4(s, from + 1)
  }

  /** `s.replace(/(\d{3})(\d)/, '$1.$2')`: a dot after the first three digits
      of the first run of four. */
  function DotFirstRun(s: string): (r: string)
    ensures |r| == |s| || |r| == |s| + 1
    ensures |r| == |s| + 1 <==> exists q :: RunOf4At(s, q)
    ensures |r| == |s| ==> r == s
    ensures OnlyDigits(r) == OnlyDigits(s)
  {
    match FirstRunOf4(s, 0)
    case None => s
    case Some(p) => InsertMarkKeepsDigits(s, p + 3, '.'); s[..p + 3] + "." + s[p + 3..]
  }

  /** Inserting a character that is not a digit leaves the digits alone. */
  lemma InsertMarkKeepsDigits(s: string, k: nat, c: char)
    requires k <= |s| && !IsDigit(c)
    ensures OnlyDigits(s[..k] + [c] + s[k..]) == OnlyDigits(s)
  {
    SplitJoin(s, k);
    MarkBetween(s[..k], s[k..], c);
    OnlyDigitsAppend(s[..k], s[k..]);
  }

  lemma SplitJoin(s: string, k: nat)
    requires k <= |s|
    ensures s[..k] + s[k..] == s
  {
  }

  lemma MarkBetween(a: string, b: string, c: char)
    requires !IsDigit(c)
    ensures OnlyDigits(a + [c] + b) == OnlyDigits(a) + OnlyDigits(b)
  {
    assert OnlyDigits([c]) == [] by {
      assert [c][1..] == [];
    }
    OnlyDigitsAppend(a, [c]);
    OnlyDigitsAppend(a + [c], b);
  }

  /** `s.replace(/(\d{3})(\d{1,2})$/, '$1-$2')`: when the string ends in five
      digits, a dash before the last two; otherwise, when it ends in four, a
      dash before the last one. */
  function DashBeforeTail(s: string): (r: string)
    ensures |r| == |s| || |r| == |s| + 1
    ensures |r| == |s| + 1 <==> |s| >= 4 && AllDigits(s[|s| - 4..])
    ensures |r| == |s| ==> r == s
    ensures OnlyDigits(r) == OnlyDigits(s)
  {
    if |s| >= 5 && AllDigits(s[|s| - 5..]) then
      assert AllDigits(s[|s| - 4..]) by { assert s[|s| - 4..] == s[|s| - 5..][1..]; }
      InsertMarkKeepsDigits(s, |s| - 2, '-'); s[..|s| - 2] + "-" + s[|s| - 2..]
    else if |s| >= 4 && AllDigits(s[|s| - 4..]) then
      InsertMarkKeepsDigits(s, |s| - 1, '-'); s[..|s| - 1] + "-" + s[|s| - 1..]
    else s
  }

  /** `s.slice(0, 14)` */
  function Take14(s: string): (r: string)
    ensures |r| <= 14 && |r| <= |s| && r == s[..|r|]
    ensures |s| <= 14 ==> r == s
  {
    if |s| <= 14 then s else s[..14]
  }

  /** `cpfMask(value)` */
  function CpfMask(value: string): (r: string)
    ensures |r| <= 14
  {
    Take14(DashBeforeTail(DotFirstRun(DotFirstRun(OnlyDigits(value)))))
  }

  /** The first eight characters of every mask of seven or more digits. */
  function Dotted(d: string, k: nat): (r: string)
    requires 6 <= k <= |d|
    ensures |r| == k + 2
  {
    d[..3] + "." + d[3..6] + "." + d[6..k]
  }

  /** The mask of a string of `n` digits, case by case: the dots go after
      the third and sixth digits, the dash after the ninth when there are ten
      or eleven, and longer inputs lose their tail to the 14-character cut
      (twelve and thirteen digits keep eleven, more keep twelve). */
  function Shape(d: string): (r: string)
    requires AllDigits(d)
  {
    var n := |d|;
    if n <= 3 then d
    else if n <= 6 then d[..3] + "." + d[3..]
    else if n <= 9 then Dotted(d, n)
    else if n <= 11 then Dotted(d, 9) + "-" + d[9..]
    else if n == 12 then Dotted(d, 10) + "-" + d[10..11]
    else if n == 13 then Dotted(d, 11) + "-"
    else Dotted(d, 12)
  }

  /** The first replacement on a string of digits. */
  lemma FirstDot(d: string)
    requires AllDigits(d)
    ensures |d| < 4 ==> DotFirstRun(d) == d
    ensures |d| >= 4 ==> DotFirstRun(d) == d[..3] + "." + d[3..]
  {
    if |d| >= 4 {
      assert RunOf4At(d, 0);
    } else {
      assert FirstRunOf4(d, 0) == None;
    }
  }

  /** The second replacement: the first dot breaks every run that starts
      before it, so the next run of four starts right after it. */
  lemma SecondDot(d: string)
    requires AllDigits(d) && |d| >= 4
    ensures var s := d[..3] + "." + d[3..];
      DotFirstRun(s) == if |d| >= 7 then Dotted(d, |d|) else s
  {
    var s := d[..3] + "." + d[3..];
    assert s[3] == '.';
    forall q: nat | q < 4
      ensures !RunOf4At(s, q)
    {
      if q + 4 <= |s| {
        assert s[q..q + 4][3 - q] == '.';
      }
    }
    var r := FirstRunOf4(s, 0);
    if |d| >= 7 {
      assert s[4..8] == d[3..7];
      assert RunOf4At(s, 4);
      assert r == Some(4);
      assert s[..7] + "." + s[7..] == Dotted(d, |d|);
    } else {
      assert forall q :: 4 <= q ==> !RunOf4At(s, q);
      assert r == None;
    }
  }

  /** A string whose character at `k` is not a digit has no all-digit tail
      starting at or before `k`. */
  lemma NoDigitTail(s: string, k: nat, start: nat)
    requires k < |s| && !IsDigit(s[k]) && start <= k
    ensures !AllDigits(s[start..])
  {
    assert s[start..][k - start] == s[k];
  }

  /** No dash is added to the one-dot form of four to six digits. */
  lemma DashShort(d: string)
    requires AllDigits(d) && 4 <= |d| <= 6
    ensures DashBeforeTail(d[..3] + "." + d[3..]) == d[..3] + "." + d[3..]
  {
    var s := d[..3] + "." + d[3..];
    assert s[3] == '.';
    if |s| >= 5 { NoDigitTail(s, 3, |s| - 5); }
    NoDigitTail(s, 3, |s| - 4);
  }

  /** No dash is added to the two-dot form of seven to nine digits. */
  lemma DashDotted(d: string)
    requires AllDigits(d) && 7 <= |d| <= 9
    ensures DashBeforeTail(Dotted(d, |d|)) == Dotted(d, |d|)
  {
    var s := Dotted(d, |d|);
    assert s[7] == '.';
    NoDigitTail(s, 7, |s| - 5);
    NoDigitTail(s, 7, |s| - 4);
  }

  /** Ten digits end in a run of four after the second dot, so the dash goes
      before the last digit. */
  lemma DashTen(d: string)
    requires AllDigits(d) && |d| == 10
    ensures DashBeforeTail(Dotted(d, 10)) == Dotted(d, 9) + "-" + d[9..]
  {
    var s := Dotted(d, 10);
    assert s[7] == '.';
    NoDigitTail(s, 7, |s| - 5);
    assert s[|s| - 4..] == d[6..];
    assert s[..|s| - 1] == Dotted(d, 9);
    assert s[|s| - 1..] == d[9..];
  }

  /** Eleven or more digits end in a run of five, so the dash goes before
      the last two. */
  lemma DashLong(d: string)
    requires AllDigits(d) && |d| >= 11
    ensures DashBeforeTail(Dotted(d, |d|)) == Dotted(d, |d| - 2) + "-" + d[|d| - 2..]
  {
    var n := |d|;
    var s := Dotted(d, n);
    assert s[|s| - 5..] == d[n - 5..];
    assert s[..|s| - 2] == Dotted(d, n - 2);
    assert s[|s| - 2..] == d[n - 2..];
  }

  /** The 14-character cut on the dashed form of eleven or more digits. */
  lemma Cut(d: string)
    requires AllDigits(d) && |d| >= 11
    ensures Take14(Dotted(d, |d| - 2) + "-" + d[|d| - 2..]) == Shape(d)
  {
    var n := |d|;
    var s := Dotted(d, n - 2) + "-" + d[n - 2..];
    if n == 12 {
      assert s[..14] == Dotted(d, 10) + "-" + d[10..11];
    } else if n == 13 {
      assert s[..14] == Dotted(d, 11) + "-";
    } else if n >= 14 {
      assert s[..14] == Dotted(d, 12);
    }
  }

  /** The regular-expression pipeline computes `Shape` of the input's
      digits. */
  lemma MaskIsShape(value: string)
    ensures CpfMask(value) == Shape(OnlyDigits(value))
  {
    var d := OnlyDigits(value);
    var n := |d|;
    FirstDot(d);
    if n >= 4 {
      SecondDot(d);
      if n <= 6 {
        DashShort(d);
      } else if n <= 9 {
        DashDotted(d);
      } else if n == 10 {
        DashTen(d);
      } else {
        DashLong(d);
        Cut(d);
      }
    }
  }

  /** The characters a mask may contain. */
  predicate MaskChar(c: char) {
    IsDigit(c) || c == '.' || c == '-'
  }

  predicate AllMaskChars(s: string) {
    forall i :: 0 <= i < |s| ==> MaskChar(s[i])
  }

  lemma MaskCharsAppend(a: string, b: string)
    requires AllMaskChars(a) && AllMaskChars(b)
    ensures AllMaskChars(a + b)
  {
  }

  lemma DigitsAreMaskChars(d: string, lo: nat, hi: nat)
    requires AllDigits(d) && lo <= hi <= |d|
    ensures AllMaskChars(d[lo..hi])
  {
  }

  /** How many of the input's digits survive: all of them up to eleven, then
      eleven, then twelve. */
  function Kept(n: nat): (k: nat)
    ensures k <= n
  {
    if n <= 11 then n else if n <= 13 then 11 else 12
  }

  /** The dotted prefix keeps the digits it shows, in order. */
  lemma DottedDigits(d: string, k: nat)
    requires AllDigits(d) && 6 <= k <= |d|
    ensures OnlyDigits(Dotted(d, k)) == d[..k]
  {
    assert OnlyDigits(".") == [];
    OnlyDigitsOfDigits(d[..3]);
    OnlyDigitsOfDigits(d[3..6]);
    OnlyDigitsOfDigits(d[6..k]);
    OnlyDigitsAppend(d[..3], ".");
    assert OnlyDigits(d[..3] + ".") == d[..3];
    OnlyDigitsAppend(d[..3] + ".", d[3..6]);
    assert OnlyDigits(d[..3] + "." + d[3..6]) == d[..3] + d[3..6];
    OnlyDigitsAppend(d[..3] + "." + d[3..6], ".");
    assert OnlyDigits(d[..3] + "." + d[3..6] + ".") == d[..3] + d[3..6];
    OnlyDigitsAppend(d[..3] + "." + d[3..6] + ".", d[6..k]);
    assert d[..3] + d[3..6] + d[6..k] == d[..k];
  }

  lemma DottedMaskChars(d: string, k: nat)
    requires AllDigits(d) && 6 <= k <= |d|
    ensures AllMaskChars(Dotted(d, k))
  {
    DigitsAreMaskChars(d, 0, 3);
    DigitsAreMaskChars(d, 3, 6);
    DigitsAreMaskChars(d, 6, k);
    assert d[..3] == d[0..3];
    assert AllMaskChars(".");
    MaskCharsAppend(d[..3], ".");
    MaskCharsAppend(d[..3] + ".", d[3..6]);
    MaskCharsAppend(d[..3] + "." + d[3..6], ".");
    MaskCharsAppend(d[..3] + "." + d[3..6] + ".", d[6..k]);
  }

  /** A dotted prefix, a dash, then digits. */
  lemma DashedDigits(d: string, k: nat, t: string)
    requires AllDigits(d) && 6 <= k <= |d| && AllDigits(t)
    ensures OnlyDigits(Dotted(d, k) + "-" + t) == d[..k] + t
  {
    var a := Dotted(d, k);
    assert OnlyDigits("-") == [];
    DottedDigits(d, k);
    OnlyDigitsOfDigits(t);
    OnlyDigitsAppend(a, "-");
    assert OnlyDigits(a + "-") == d[..k];
    OnlyDigitsAppend(a + "-", t);
  }

  lemma DashedMaskChars(d: string, k: nat, t: string)
    requires AllDigits(d) && 6 <= k <= |d| && AllDigits(t)
    ensures AllMaskChars(Dotted(d, k) + "-" + t)
  {
    DottedMaskChars(d, k);
    DigitsAreMaskChars(t, 0, |t|);
    assert t[0..|t|] == t;
    assert AllMaskChars("-");
    MaskCharsAppend(Dotted(d, k), "-");
    MaskCharsAppend(Dotted(d, k) + "-", t);
  }

  lemma ShortShapeDigits(d: string)
    requires AllDigits(d) && 4 <= |d| <= 6
    ensures OnlyDigits(d[..3] + "." + d[3..]) == d
    ensures AllMaskChars(d[..3] + "." + d[3..])
  {
    OnlyDigitsAppend(d[..3] + ".", d[3..]);
    OnlyDigitsAppend(d[..3], ".");
    OnlyDigitsOfDigits(d[..3]);
    OnlyDigitsOfDigits(d[3..]);
    assert OnlyDigits(".") == [];
    assert d[..3] + d[3..] == d;
    DigitsAreMaskChars(d, 0, 3);
    DigitsAreMaskChars(d, 3, |d|);
    assert d[..3] == d[0..3] && d[3..] == d[3..|d|];
    assert AllMaskChars(".");
    MaskCharsAppend(d[..3], ".");
    MaskCharsAppend(d[..3] + ".", d[3..]);
  }

  /** `Shape` keeps the first `Kept(n)` digits, in order, and adds nothing
      but dots and dashes. */
  lemma ShapeDigits(d: string)
    requires AllDigits(d)
    ensures OnlyDigits(Shape(d)) == d[..Kept(|d|)]
    ensures AllMaskChars(Shape(d))
  {
    var n := |d|;
    if n <= 3 {
      OnlyDigitsOfDigits(d);
      assert d[..n] == d;
    } else if n <= 6 {
      ShortShapeDigits(d);
      assert d[..n] == d;
    } else if n <= 9 {
      DottedDigits(d, n);
      DottedMaskChars(d, n);
    } else if n <= 11 {
      DashedDigits(d, 9, d[9..]);
      DashedMaskChars(d, 9, d[9..]);
      assert d[..9] + d[9..] == d[..n];
    } else if n == 12 {
      DashedDigits(d, 10, d[10..11]);
      DashedMaskChars(d, 10, d[10..11]);
      assert d[..10] + d[10..11] == d[..11];
    } else if n == 13 {
      DashedDigits(d, 11, []);
      DashedMaskChars(d, 11, []);
      assert Dotted(d, 11) + "-" + [] == Dotted(d, 11) + "-";
      assert d[..11] + [] == d[..11];
    } else {
      DottedDigits(d, 12);
      DottedMaskChars(d, 12);
    }
  }

  /** The mask holds only digits, dots and dashes, and its digits are the
      input's first `Kept(n)` digits: all of them for a CPF-sized input. */
  lemma MaskKeepsDigits(value: string)
    ensures AllMaskChars(CpfMask(value))
    ensures OnlyDigits(CpfMask(value)) == OnlyDigits(value)[..Kept(|OnlyDigits(value)|)]
    ensures |OnlyDigits(value)| <= 11 ==> OnlyDigits(CpfMask(value)) == OnlyDigits(value)
  {
    var d, m := OnlyDigits(value), CpfMask(value);
    assert m == Shape(d) by {
      MaskIsShape(value);
    }
    ShapeDigits(d);
    assert d[..|d|] == d;
  }

  /** Only the digits of the input matter. */
  lemma MaskIgnoresNonDigits(value: string)
    ensures CpfMask(value) == CpfMask(OnlyDigits(value))
  {
    OnlyDigitsOfDigits(OnlyDigits(value));
  }

  /** Eleven digits come out as `DDD.DDD.DDD-DD`. */
  lemma ElevenDigits(value: string)
    requires |OnlyDigits(value)| == 11
    ensures var d := OnlyDigits(value);
      CpfMask(value) == d[..3] + "." + d[3..6] + "." + d[6..9] + "-" + d[9..]
  {
    MaskIsShape(value);
  }

  /** Up to three digits come out unchanged. */
  lemma FewDigits(value: string)
    requires |OnlyDigits(value)| <= 3
    ensures CpfMask(value) == OnlyDigits(value)
  {
    MaskIsShape(value);
  }

  /** Masking a masked CPF-sized input changes nothing, so the mask can be
      applied on every keystroke. */
  lemma MaskIdempotent(value: string)
    requires |OnlyDigits(value)| <= 11
    ensures CpfMask(CpfMask(value)) == CpfMask(value)
  {
    MaskKeepsDigits(value);
    MaskIsShape(value);
    MaskIsShape(CpfMask(value));
  }
}

=== FILE: motorista.dfy ===
/** The driver record of the queue (`Motorista`) and the stable ordering by
    arrival time that both the roster and the queue screen apply. */
module Motoristas {

  import opened Common

  /** The three queue states a record can be in. */
  datatype Status = Aguardando | Descarregando | Descarregado

  /** A driver record as the server sends it.  `serverId` is the server's
      `_id`; every timestamp is an instant in milliseconds since the epoch
      (the application carries ISO strings and parses them with `new Date`).
      The durations are `None` when the server leaves them out. */
  datatype Registro = Registro(
    serverId: string,
    nome: string,
    status: Status,
    dataChegada: string,
    horaChegada: string,
    timestampChegada: int,
    tempoFila: Option<int>,
    tempoDescarga: Option<int>,
    timestampInicioDescarga: Option<int>,
    timestampFimDescarga: Option<int>)

  /** A roster entry: the server record spread into a new object whose
      `id` is set to the record's `_id`. */
  datatype Motorista = Motorista(id: string, rec: Registro)

  /** `{ ...item, id: item._id }` */
  function FromServer(item: Registro): Motorista {
    Motorista(item.serverId, item)
  }

  /** `items.map(item => ({ ...item, id: item._id }))` */
  function FromServerAll(items: seq<Registro>): (ms: seq<Motorista>)
    ensures |ms| == |items|
    ensures forall i :: 0 <= i < |items| ==> ms[i].id == items[i].serverId && ms[i].rec == items[i]
  {
    if items == [] then [] else [FromServer(items[0])] + FromServerAll(items[1..])
  }
}

/** `Array.prototype.sort` with the comparators the application passes:
    `a.t - b.t` (ascending arrival) and `b.t - a.t` (descending arrival).
    The engine's sort is stable, so the result is the stable sort by the
    key; it is modelled as insertion sort, proved stable (`SortIsStable`)
    and equal to every stable sort of its input (`SortIsTheStableSort`). */
module Ordenacao {

  import opened Motoristas

  /** The sort key: arrival time, negated for the descending comparator. */
  function Key(m: Motorista, descending: bool): int {
    if descending then -m.rec.timestampChegada else m.rec.timestampChegada
  }

  predicate Sorted(s: seq<Motorista>, descending: bool) {
    forall i, j :: 0 <= i < j < |s| ==> Key(s[i], descending) <= Key(s[j], descending)
  }

  predicate Ascending(s: seq<Motorista>) {
    forall i, j :: 0 <= i < j < |s| ==> s[i].rec.timestampChegada <= s[j].rec.timestampChegada
  }

  predicate Descending(s: seq<Motorista>) {
    forall i, j :: 0 <= i < j < |s| ==> s[i].rec.timestampChegada >= s[j].rec.timestampChegada
  }

  /** Places `x` after every element whose key does not exceed its own. */
  function Insert(s: seq<Motorista>, x: Motorista, descending: bool): seq<Motorista> {
    if s == [] then [x]
    else if Key(x, descending) < Key(s[|s| - 1], descending) then
      Insert(s[..|s| - 1], x, descending) + [s[|s| - 1]]
    else s + [x]
  }

  predicate AllAtMost(s: seq<Motorista>, bound: int, descending: bool) {
    forall i :: 0 <= i < |s| ==> Key(s[i], descending) <= bound
  }

  lemma SortedSnoc(s: seq<Motorista>, x: Motorista, descending: bool)
    requires Sorted(s, descending) && AllAtMost(s, Key(x, descending), descending)
    ensures Sorted(s + [x], descending)
  {
  }

  lemma AllAtMostSnoc(s: seq<Motorista>, x: Motorista, bound: int, descending: bool)
    requires AllAtMost(s, bound, descending) && Key(x, descending) <= bound
    ensures AllAtMost(s + [x], bound, descending)
  {
  }

  /** Insertion keeps every key under a bound both `s` and `x` respect. */
  lemma {:induction false} InsertBelow(s: seq<Motorista>, x: Motorista, descending: bool, bound: int)
    requires AllAtMost(s, bound, descending) && Key(x, descending) <= bound
    ensures AllAtMost(Insert(s, x, descending), bound, descending)
  {
    if s == [] {
    } else if Key(x, descending) < Key(s[|s| - 1], descending) {
      var init, last := s[..|s| - 1], s[|s| - 1];
      assert AllAtMost(init, bound, descending);
      InsertBelow(init, x, descending, bound);
      AllAtMostSnoc(Insert(init, x, descending), last, bound, descending);
    } else {
      AllAtMostSnoc(s, x, bound, descending);
    }
  }

  /** Insertion into a sorted sequence gives a sorted sequence. */
  lemma {:induction false} InsertSorted(s: seq<Motorista>, x: Motorista, descending: bool)
    requires Sorted(s, descending)
    ensures Sorted(Insert(s, x, descending), descending)
  {
    if s == [] {
    } else if Key(x, descending) < Key(s[|s| - 1], descending) {
      var init, last := s[..|s| - 1], s[|s| - 1];
      assert Sorted(init, descending);
      assert AllAtMost(init, Key(last, descending), descending);
      InsertSorted(init, x, descending);
      InsertBelow(init, x, descending, Key(last, descending));
      SortedSnoc(Insert(init, x, descending), last, descending);
    } else {
      SortedSnoc(s, x, descending);
    }
  }

  /** Insertion adds exactly `x` and loses nothing. */
  lemma {:induction false} InsertPermutes(s: seq<Motorista>, x: Motorista, descending: bool)
    ensures multiset(Insert(s, x, descending)) == multiset(s) + multiset{x}
  {
    if s != [] && Key(x, descending) < Key(s[|s| - 1], descending) {
      var init, last := s[..|s| - 1], s[|s| - 1];
      assert s == init + [last];
      InsertPermutes(init, x, descending);
    }
  }

  /** The stable sort of `s` by arrival time. */
  function Sort(s: seq<Motorista>, descending: bool): (r: seq<Motorista>)
    ensures Sorted(r, descending)
    ensures multiset(r) == multiset(s)
  {
    if s == [] then []
    else
      var front, last := s[..|s| - 1], s[|s| - 1];
      var sorted := Sort(front, descending);
      assert s == front + [last];
      InsertSorted(sorted, last, descending);
      InsertPermutes(sorted, last, descending);
      Insert(sorted, last, descending)
  }

  /** The entries of `s` whose key is `k`, in their order in `s`. */
  function WithKey(s: seq<Motorista>, k: int, descending: bool): seq<Motorista> {
    if s == [] then []
    else WithKey(s[..|s| - 1], k, descending) + (if Key(s[|s| - 1], descending) == k then [s[|s| - 1]] else [])
  }

  /** Insertion puts `x` after every entry with its own key. */
  lemma {:induction false} InsertKeepsTies(s: seq<Motorista>, x: Motorista, k: int, descending: bool)
    ensures WithKey(Insert(s, x, descending), k, descending)
         == WithKey(s, k, descending) + (if Key(x, descending) == k then [x] else [])
  {
    var tx := if Key(x, descending) == k then [x] else [];
    if s == [] {
      assert [x][..0] == [];
    } else if Key(x, descending) < Key(s[|s| - 1], descending) {
      var init, last := s[..|s| - 1], s[|s| - 1];
      var ins := Insert(init, x, descending);
      var tl := if Key(last, descending) == k then [last] else [];
      var w := WithKey(init, k, descending);
      InsertKeepsTies(init, x, k, descending);
      assert WithKey(Insert(s, x, descending), k, descending) == (w + tx) + tl by {
        assert Insert(s, x, descending) == ins + [last];
        assert (ins + [last])[..|ins + [last]| - 1] == ins;
      }
      assert WithKey(s, k, descending) == w + tl;
      SwapTail(w, tx, tl);
    } else {
      assert Insert(s, x, descending) == s + [x];
      assert (s + [x])[..|s + [x]| - 1] == s;
      assert WithKey(s + [x], k, descending) == WithKey(s, k, descending) + tx;
    }
  }

  /** Two tails of which one is empty can be appended in either order. */
  lemma SwapTail(w: seq<Motorista>, tx: seq<Motorista>, tl: seq<Motorista>)
    requires tx == [] || tl == []
    ensures (w + tx) + tl == (w + tl) + tx
  {
  }

  /** The sort is stable: for every key, the entries with that key come out
      in the order they went in. */
  lemma {:induction false} SortIsStable(s: seq<Motorista>, k: int, descending: bool)
    ensures WithKey(Sort(s, descending), k, descending) == WithKey(s, k, descending)
  {
    if s != [] {
      var front, last := s[..|s| - 1], s[|s| - 1];
      SortIsStable(front, k, descending);
      InsertKeepsTies(Sort(front, descending), last, k, descending);
    }
  }

  /** Every entry `WithKey` keeps is an entry of `s` with key `k`; `j` is
      where it sits in `s`. */
  lemma {:induction false} WithKeyMembers(s: seq<Motorista>, k: int, descending: bool, i: nat) returns (j: nat)
    requires i < |WithKey(s, k, descending)|
    ensures j < |s| && s[j] == WithKey(s, k, descending)[i] && Key(s[j], descending) == k
  {
    var front := s[..|s| - 1];
    if i < |WithKey(front, k, descending)| {
      j := WithKeyMembers(front, k, descending, i);
    } else {
      j := |s| - 1;
    }
  }

  /** The last entry of a list is kept by the filter on its own key. */
  lemma LastKept(s: seq<Motorista>, descending: bool)
    requires s != []
    ensures WithKey(s, Key(s[|s| - 1], descending), descending) != []
  {
  }

  /** In a sorted list, no entry with key `k` exists when `k` is above the
      key of the last entry. */
  lemma KeyAtMostLast(s: seq<Motorista>, k: int, descending: bool)
    requires Sorted(s, descending) && s != [] && WithKey(s, k, descending) != []
    ensures k <= Key(s[|s| - 1], descending)
  {
    var j := WithKeyMembers(s, k, descending, 0);
  }

  /** Two sorted lists that agree on the entries of every key end in the
      same entry. */
  lemma SameLast(a: seq<Motorista>, b: seq<Motorista>, descending: bool)
    requires Sorted(a, descending) && Sorted(b, descending) && a != [] && b != []
    requires forall k :: WithKey(a, k, descending) == WithKey(b, k, descending)
    ensures a[|a| - 1] == b[|b| - 1]
  {
    var ka, kb := Key(a[|a| - 1], descending), Key(b[|b| - 1], descending);
    var wa, wb := WithKey(a, ka, descending), WithKey(b, kb, descending);
    assert wa[|wa| - 1] == a[|a| - 1] && wb[|wb| - 1] == b[|b| - 1];
    assert WithKey(b, ka, descending) == wa && WithKey(a, kb, descending) == wb;
    KeyAtMostLast(b, ka, descending);
    KeyAtMostLast(a, kb, descending);
  }

  /** Dropping the same last entry from two lists that agree on every key
      leaves fronts that agree on every key. */
  lemma SameFronts(a: seq<Motorista>, b: seq<Motorista>, fa: seq<Motorista>, fb: seq<Motorista>, descending: bool)
    requires a != [] && b != [] && a[|a| - 1] == b[|b| - 1]
    requires fa == a[..|a| - 1] && fb == b[..|b| - 1]
    requires forall k :: WithKey(a, k, descending) == WithKey(b, k, descending)
    ensures forall k :: WithKey(fa, k, descending) == WithKey(fb, k, descending)
  {
    forall k ensures WithKey(fa, k, descending) == WithKey(fb, k, descending) {
      var tail := if Key(a[|a| - 1], descending) == k then [a[|a| - 1]] else [];
      var x, y := WithKey(fa, k, descending), WithKey(fb, k, descending);
      assert x + tail == y + tail by {
        assert WithKey(a, k, descending) == WithKey(b, k, descending);
      }
      assert x == (x + tail)[..|x|] && y == (y + tail)[..|y|];
    }
  }

  /** Two sorted lists that agree on the order of the entries of every key
      are the same list. */
  lemma {:induction false} StableSortedUnique(a: seq<Motorista>, b: seq<Motorista>, descending: bool)
    requires Sorted(a, descending) && Sorted(b, descending)
    requires forall k :: WithKey(a, k, descending) == WithKey(b, k, descending)
    ensures a == b
    decreases |a| + |b|
  {
    if a != [] && b != [] {
      SameLast(a, b, descending);
      var fa, fb := a[..|a| - 1], b[..|b| - 1];
      SameFronts(a, b, fa, fb, descending);
      assert Sorted(fa, descending) && Sorted(fb, descending);
      StableSortedUnique(fa, fb, descending);
      assert a == fa + [a[|a| - 1]] && b == fb + [b[|b| - 1]];
    } else if b != [] {
      LastKept(b, descending);
      assert false;
    } else if a != [] {
      LastKept(a, descending);
      assert false;
    }
  }

  /** `Sort` is the one stable sort: any list ordered by the key that keeps
      the entries of every key in their input order is `Sort(s)`. */
  lemma SortIsTheStableSort(s: seq<Motorista>, r: seq<Motorista>, descending: bool)
    requires Sorted(r, descending)
    requires forall k :: WithKey(r, k, descending) == WithKey(s, k, descending)
    ensures r == Sort(s, descending)
  {
    forall k ensures WithKey(r, k, descending) == WithKey(Sort(s, descending), k, descending) {
      SortIsStable(s, k, descending);
    }
    StableSortedUnique(r, Sort(s, descending), descending);
  }

  lemma SortedAscending(s: seq<Motorista>)
    ensures Sorted(s, false) <==> Ascending(s)
  {
  }

  lemma SortedDescending(s: seq<Motorista>)
    ensures Sorted(s, true) <==> Descending(s)
  {
  }

  /** A record whose key is not below the last one is appended. */
  lemma InsertAtEnd(s: seq<Motorista>, x: Motorista, descending: bool)
    requires s != [] ==> Key(s[|s| - 1], descending) <= Key(x, descending)
    ensures Insert(s, x, descending) == s + [x]
  {
  }

  /** Dropping the last element commutes with splitting before it. */
  lemma SnocSplit(s: seq<Motorista>, k: nat)
    requires k < |s|
    ensures s[..|s| - 1][..k] == s[..k]
    ensures s[k..] == s[..|s| - 1][k..] + [s[|s| - 1]]
  {
  }

  /** Sorting an already sorted sequence leaves it as it is. */
  lemma {:induction false} SortOfSorted(s: seq<Motorista>, descending: bool)
    requires Sorted(s, descending)
    ensures Sort(s, descending) == s
  {
    if s != [] {
      var front, last := s[..|s| - 1], s[|s| - 1];
      assert s == front + [last];
      SortOfSorted(front, descending);
      InsertAtEnd(front, last, descending);
    }
  }

  /** Inserting into a sorted sequence splits it in two: the elements whose
      key does not exceed `x`'s, then `x`, then the rest, each part in its
      original order. */
  lemma {:induction false} InsertSplits(s: seq<Motorista>, x: Motorista, descending: bool) returns (k: nat)
    requires Sorted(s, descending)
    ensures k <= |s|
    ensures Insert(s, x, descending) == s[..k] + [x] + s[k..]
    ensures forall i :: 0 <= i < k ==> Key(s[i], descending) <= Key(x, descending)
    ensures forall i :: k <= i < |s| ==> Key(x, descending) < Key(s[i], descending)
  {
    if s == [] {
      k := 0;
    } else if Key(x, descending) < Key(s[|s| - 1], descending) {
      var front := s[..|s| - 1];
      var last := s[|s| - 1];
      k := InsertSplits(front, x, descending);
      SnocSplit(s, k);
      assert Insert(s, x, descending) == (front[..k] + [x] + front[k..]) + [last];
      forall i | 0 <= i < |front|
        ensures s[i] == front[i]
      {
      }
    } else {
      k := |s|;
      InsertAtEnd(s, x, descending);
      assert s[..k] == s && s[k..] == [];
      forall i | 0 <= i < k
        ensures Key(s[i], descending) <= Key(x, descending)
      {
        assert Key(s[i], descending) <= Key(s[|s| - 1], descending);
      }
    }
  }

  /** Appending one record to a sorted roster and sorting again — what the
      add operation does — is the same as inserting it in place. */
  lemma SortAfterAppend(s: seq<Motorista>, x: Motorista, descending: bool)
    requires Sorted(s, descending)
    ensures Sort(s + [x], descending) == Insert(s, x, descending)
  {
    assert (s + [x])[..|s|] == s;
    SortOfSorted(s, descending);
  }
}

=== FILE: roster.dfy ===
/** The driver roster provider (`MotoristasProvider`): the in-memory list of
    queue entries, the last error message and the loading flag, and the four
    operations that talk to the server.  Each operation is a transition from
    the state before the call to the state once its promise has settled; the
    server's answer is an input. */
module Roster {

  import opened Common
  import opened JsText
  import opened Motoristas
  import Ordenacao

  datatype State = State(motoristas: seq<Motorista>, error: Option<string>, loading: bool)

  datatype HttpMethod = Get | Post | Put

  /** The request an operation sends; `body` is the `nome` field of the
      JSON body of the add request. */
  datatype Request = Request(httpMethod: HttpMethod, url: string, body: Option<string>)

  /** How a request ended, as the code observes it. */
  datatype Response<T> =
    | Rejected(message: string)      // `fetch` or `response.json()` rejected
    | HttpFail(status: nat)          // `response.ok` was false
    | AppFail(erro: Option<string>)  // the body's `success` was false
    | Ok(data: T)                    // `success` was true; `data` is the payload

  /** Whether the operation's promise resolved or rejected. */
  datatype Outcome = Returned | Threw(message: string)

  datatype Step = Step(state: State, request: Option<Request>, outcome: Outcome)

  datatype Operation = Refresh | Add | StartUnload | FinishUnload

  const Resource: string := "/api/melicages/motoristas"
  const NotConfigured: string := "API não configurada"
  const UnknownError: string := "Erro desconhecido"

  /** The message of the `Error` thrown for an unsuccessful HTTP status. */
  function HttpErrorMessage(op: Operation, status: nat): string {
    match op
    case Refresh => "Erro HTTP " + NatToString(status)
    case Add => "Erro ao registrar chegada"
    case StartUnload => "Erro ao iniciar descarga"
    case FinishUnload => "Erro ao finalizar descarga"
  }

  /** `json.erro || 'Erro desconhecido'`: a missing or empty message is falsy. */
  function AppErrorMessage(erro: Option<string>): (m: string)
    ensures m != []
    ensures erro.Some? && erro.value != [] ==> m == erro.value
    ensures !(erro.Some? && erro.value != []) ==> m == UnknownError
  {
    if erro.Some? && erro.value != [] then erro.value else UnknownError
  }

  /** The `message` of the error the `catch` block receives. */
  function FailureMessage<T>(op: Operation, resp: Response<T>): string
    requires !resp.Ok?
  {
    match resp
    case Rejected(m) => m
    case HttpFail(status) => HttpErrorMessage(op, status)
    case AppFail(erro) => AppErrorMessage(erro)
  }

  /** `fetchMotoristas` (also exposed as `refreshMotoristas`).  Never throws:
      failures are recorded in `error`. */
  function RefreshRoster(s: State, apiUrl: string, resp: Response<seq<Registro>>): (r: Step)
    ensures r.outcome == Returned
    ensures apiUrl == [] ==> r.request == None && r.state == s.(motoristas := [])
    ensures apiUrl != [] ==> r.request == Some(Request(Get, apiUrl + Resource, None)) && !r.state.loading
    ensures apiUrl != [] && resp.Ok? ==>
      && |r.state.motoristas| == |resp.data|
      && (forall i :: 0 <= i < |resp.data| ==>
            r.state.motoristas[i].id == resp.data[i].serverId && r.state.motoristas[i].rec == resp.data[i])
      && r.state.error == None
    ensures apiUrl != [] && !resp.Ok? ==>
      r.state.motoristas == s.motoristas && r.state.error == Some(FailureMessage(Refresh, resp))
  {
    if apiUrl == [] then Step(s.(motoristas := []), None, Returned)
    else
      var req := Some(Request(Get, apiUrl + Resource, None));
      match resp
      case Ok(items) => Step(State(FromServerAll(items), None, false), req, Returned)
      case _ => Step(s.(error := Some(FailureMessage(Refresh, resp)), loading := false), req, Returned)
  }

  /** `adicionarMotorista(nome)`: on success the new record joins the roster,
      which is then sorted again by arrival time. */
  function AddMotorista(s: State, apiUrl: string, nome: string, resp: Response<Registro>): (r: Step)
    ensures apiUrl == [] ==> r == Step(s.(error := Some(NotConfigured)), None, Returned)
    ensures apiUrl != [] ==> r.request == Some(Request(Post, apiUrl + Resource, Some(nome))) && !r.state.loading
    ensures apiUrl != [] && resp.Ok? ==>
      && multiset(r.state.motoristas) == multiset(s.motoristas) + multiset{FromServer(resp.data)}
      && Ordenacao.Ascending(r.state.motoristas)
      && r.state.error == None
      && r.outcome == Returned
    ensures apiUrl != [] && !resp.Ok? ==>
      && r.state.motoristas == s.motoristas
      && r.state.error == Some(FailureMessage(Add, resp))
      && r.outcome == Threw(FailureMessage(Add, resp))
  {
    if apiUrl == [] then Step(s.(error := Some(NotConfigured)), None, Returned)
    else
      var req := Some(Request(Post, apiUrl + Resource, Some(nome)));
      match resp
      case Ok(item) =>
        var sorted := Ordenacao.Sort(s.motoristas + [FromServer(item)], false);
        Ordenacao.SortedAscending(sorted);
        Step(State(sorted, None, false), req, Returned)
      case _ =>
        var m := FailureMessage(Add, resp);
        Step(s.(error := Some(m), loading := false), req, Threw(m))
  }

  /** `prev.map(m => m.id === id ? updated : m)` */
  function ReplaceById(ms: seq<Motorista>, id: string, updated: Motorista): (r: seq<Motorista>)
    ensures |r| == |ms|
    ensures forall i :: 0 <= i < |ms| ==> r[i] == if ms[i].id == id then updated else ms[i]
  {
    if ms == [] then []
    else [if ms[0].id == id then updated else ms[0]] + ReplaceById(ms[1..], id, updated)
  }

  /** The path suffix of the start- and finish-unload endpoints. */
  function ActionPath(op: Operation): string
    requires op == StartUnload || op == FinishUnload
  {
    if op == StartUnload then "/iniciar-descarga" else "/finalizar-descarga"
  }

  /** `iniciarDescarga(id)` and `finalizarDescarga(id)`, which differ only in
      the endpoint and the HTTP error message.  Neither looks at the status
      of the entry first, and on success neither clears an earlier error. */
  function Transition(op: Operation, s: State, apiUrl: string, id: string, resp: Response<Registro>): (r: Step)
    requires op == StartUnload || op == FinishUnload
    ensures apiUrl == [] ==> r == Step(s.(error := Some(NotConfigured)), None, Returned)
    ensures apiUrl != [] ==>
      && r.request == Some(Request(Put, apiUrl + Resource + "/" + id + ActionPath(op), None))
      && !r.state.loading
    ensures apiUrl != [] && resp.Ok? ==>
      && |r.state.motoristas| == |s.motoristas|
      && (forall i :: 0 <= i < |s.motoristas| && s.motoristas[i].id != id ==>
            r.state.motoristas[i] == s.motoristas[i])
      && (forall i :: 0 <= i < |s.motoristas| && s.motoristas[i].id == id ==>
            r.state.motoristas[i].id == resp.data.serverId && r.state.motoristas[i].rec == resp.data)
      && r.state.error == s.error
      && r.outcome == Returned
    ensures apiUrl != [] && !resp.Ok? ==>
      && r.state.motoristas == s.motoristas
      && r.state.error == Some(FailureMessage(op, resp))
      && r.outcome == Threw(FailureMessage(op, resp))
  {
    if apiUrl == [] then Step(s.(error := Some(NotConfigured)), None, Returned)
    else
      var req := Some(Request(Put, apiUrl + Resource + "/" + id + ActionPath(op), None));
      match resp
      case Ok(item) =>
        Step(s.(motoristas := ReplaceById(s.motoristas, id, FromServer(item)), loading := false), req, Returned)
      case _ =>
        var m := FailureMessage(op, resp);
        Step(s.(error := Some(m), loading := false), req, Threw(m))
  }

  /** `iniciarDescarga(id)` */
  function IniciarDescarga(s: State, apiUrl: string, id: string, resp: Response<Registro>): Step {
    Transition(StartUnload, s, apiUrl, id, resp)
  }

  /** `finalizarDescarga(id)` */
  function FinalizarDescarga(s: State, apiUrl: string, id: string, resp: Response<Registro>): Step {
    Transition(FinishUnload, s, apiUrl, id, resp)
  }

  /** Refresh replaces, it does not merge: after two successful refreshes the
      roster is exactly the later answer, whatever the earlier one held. */
  lemma RefreshLastWins(s: State, apiUrl: string, first: seq<Registro>, second: seq<Registro>)
    requires apiUrl != []
    ensures RefreshRoster(RefreshRoster(s, apiUrl, Ok(first)).state, apiUrl, Ok(second)).state
         == RefreshRoster(s, apiUrl, Ok(second)).state
  {
  }

  /** Every operation leaves `loading` false once it has settled, and a
      failed one leaves the roster untouched. */
  lemma {:induction false} SettledNotLoading(s: State, apiUrl: string, nome: string, id: string,
                                             list: Response<seq<Registro>>, one: Response<Registro>)
    requires !s.loading
    ensures !RefreshRoster(s, apiUrl, list).state.loading
    ensures !AddMotorista(s, apiUrl, nome, one).state.loading
    ensures !IniciarDescarga(s, apiUrl, id, one).state.loading
    ensures !FinalizarDescarga(s, apiUrl, id, one).state.loading
  {
  }

  /** On a roster already in arrival order, a successful add inserts the new
      entry after every entry that arrived no later than it, and keeps the
      rest in place. */
  lemma AddInsertsInPlace(s: State, apiUrl: string, nome: string, item: Registro) returns (k: nat)
    requires apiUrl != []
    requires Ordenacao.Ascending(s.motoristas)
    ensures k <= |s.motoristas|
    ensures AddMotorista(s, apiUrl, nome, Ok(item)).state.motoristas
         == s.motoristas[..k] + [FromServer(item)] + s.motoristas[k..]
    ensures forall i :: 0 <= i < k ==> s.motoristas[i].rec.timestampChegada <= item.timestampChegada
    ensures forall i :: k <= i < |s.motoristas| ==> item.timestampChegada < s.motoristas[i].rec.timestampChegada
  {
    var x := FromServer(item);
    Ordenacao.SortedAscending(s.motoristas);
    assert AddMotorista(s, apiUrl, nome, Ok(item)).state.motoristas == Ordenacao.Sort(s.motoristas + [x], false);
    Ordenacao.SortAfterAppend(s.motoristas, x, false);
    k := Ordenacao.InsertSplits(s.motoristas, x, false);
    assert Ordenacao.Key(x, false) == item.timestampChegada;
  }

  /** An id absent from the roster makes a successful start or finish leave
      the entries as they were. */
  lemma {:induction false} ReplaceAbsentId(ms: seq<Motorista>, id: string, updated: Motorista)
    requires forall i :: 0 <= i < |ms| ==> ms[i].id != id
    ensures ReplaceById(ms, id, updated) == ms
  {
    if ms != [] {
      ReplaceAbsentId(ms[1..], id, updated);
    }
  }

  /** Replacing by id is idempotent, whatever id the server's record carries:
      an entry the first pass replaced is either matched again and replaced
      by the same record, or no longer matched. */
  lemma ReplaceIdempotent(ms: seq<Motorista>, id: string, updated: Motorista)
    ensures ReplaceById(ReplaceById(ms, id, updated), id, updated) == ReplaceById(ms, id, updated)
  {
    var once := ReplaceById(ms, id, updated);
    forall i | 0 <= i < |ms|
      ensures ReplaceById(once, id, updated)[i] == once[i]
    {
    }
  }

  /** The client leaves the waiting → unloading → unloaded order to the
      server: finishing an entry that is still waiting sends the request
      all the same. */
  lemma FinishDoesNotCheckStatus(s: State, apiUrl: string, i: nat, resp: Response<Registro>)
    requires apiUrl != [] && i < |s.motoristas| && s.motoristas[i].rec.status == Aguardando
    ensures FinalizarDescarga(s, apiUrl, s.motoristas[i].id, resp).request.Some?
  {
  }
}

=== FILE: tempos.dfy ===
/** The live timers of a queue entry card (`components/MotoristaItem.tsx`):
    the waiting and unloading durations derived from the clock, and their
    `HH:MM:SS` rendering. */
module Tempos {

  import opened Common
  import opened JsText
  import opened Motoristas

  /** The two durations a card shows, in whole seconds.  `tempoFila` is
      `None` when the card shows the server's value and the server left it
      out (`undefined` in the application). */
  datatype Duracoes = Duracoes(tempoFila: Option<int>, tempoDescarga: int)

  /** `value || 0`: a missing (or zero) number falls back to 0. */
  function OrZero(v: Option<int>): int {
    if v.Some? then v.value else 0
  }

  /** `Math.floor(ms / 1000)`, the whole seconds in a span of milliseconds;
      Dafny's division rounds toward negative infinity for a positive divisor. */
  function Segundos(ms: int): (s: int)
    ensures s * 1000 <= ms < (s + 1) * 1000
  {
    ms / 1000
  }

  /** `calcularTempos` at the instant `agora` (milliseconds). */
  function CalcularTempos(m: Motorista, agora: int): (t: Duracoes)
    ensures m.rec.status == Aguardando ==>
      && t.tempoFila.Some?
      && t.tempoFila.value * 1000 <= agora - m.rec.timestampChegada < (t.tempoFila.value + 1) * 1000
      && t.tempoDescarga == OrZero(m.rec.tempoDescarga)
    ensures m.rec.status == Descarregando && m.rec.timestampInicioDescarga.Some? ==>
      && t.tempoFila == m.rec.tempoFila
      && t.tempoDescarga * 1000 <= agora - m.rec.timestampInicioDescarga.value < (t.tempoDescarga + 1) * 1000
    ensures m.rec.status == Descarregado || (m.rec.status == Descarregando && m.rec.timestampInicioDescarga.None?) ==>
      t == Duracoes(Some(OrZero(m.rec.tempoFila)), OrZero(m.rec.tempoDescarga))
  {
    var fila := OrZero(m.rec.tempoFila);
    var descarga := OrZero(m.rec.tempoDescarga);
    if m.rec.status == Aguardando then
      Duracoes(Some(Segundos(agora - m.rec.timestampChegada)), descarga)
    else if m.rec.status == Descarregando && m.rec.timestampInicioDescarga.Some? then
      Duracoes(m.rec.tempoFila, Segundos(agora - m.rec.timestampInicioDescarga.value))
    else
      Duracoes(Some(fila), descarga)
  }

  /** A waiting entry's queue time never goes backwards as the clock advances. */
  lemma WaitingTimeMonotone(m: Motorista, agora: int, depois: int)
    requires m.rec.status == Aguardando && agora <= depois
    ensures CalcularTempos(m, agora).tempoFila.value <= CalcularTempos(m, depois).tempoFila.value
  {
    var a := CalcularTempos(m, agora).tempoFila.value;
    var b := CalcularTempos(m, depois).tempoFila.value;
    assert a * 1000 < (b + 1) * 1000;
  }

  /** A finished entry, or an unloading one with no start instant, shows
      frozen values: the clock does not enter into them. */
  lemma FrozenIndependentOfClock(m: Motorista, agora: int, depois: int)
    requires m.rec.status == Descarregado || (m.rec.status == Descarregando && m.rec.timestampInicioDescarga.None?)
    ensures CalcularTempos(m, agora) == CalcularTempos(m, depois)
  {
  }

  /** `x % y` in JavaScript: the remainder takes the sign of the dividend. */
  function JsRem(x: int, y: int): (r: int)
    requires y > 0
    ensures x >= 0 ==> r == x % y
    ensures x < 0 ==> -y < r <= 0
  {
    if x >= 0 then x % y else -((-x) % y)
  }

  /** The three clock fields `formatarTempo` computes. */
  datatype Campos = Campos(hrs: int, mins: int, secs: int)

  function CamposDe(segundos: int): (c: Campos)
    ensures segundos >= 0 ==>
      && 0 <= c.hrs && 0 <= c.mins < 60 && 0 <= c.secs < 60
      && c.hrs * 3600 + c.mins * 60 + c.secs == segundos
  {
    var c := Campos(segundos / 3600, JsRem(segundos, 3600) / 60, JsRem(segundos, 60));
    if segundos >= 0 then
      var r := segundos % 3600;
      assert segundos == (segundos / 3600) * 3600 + r;
      assert r == (r / 60) * 60 + r % 60;
      assert segundos % 60 == r % 60 by {
        assert segundos == (segundos / 3600) * 60 * 60 + r;
        ModSixty(segundos / 3600, r);
      }
      c
    else c
  }

  lemma ModSixty(h: int, r: int)
    requires h >= 0 && 0 <= r
    ensures (h * 60 * 60 + r) % 60 == r % 60
  {
    var q := h * 60 + r / 60;
    assert h * 60 * 60 + r == q * 60 + r % 60;
  }

  /** `formatarTempo(segundos)`: each field is `toString()` padded to two
      characters with zeros. */
  function FormatarTempo(segundos: int): (out: string)
    ensures |out| >= 8
  {
    var c := CamposDe(segundos);
    PadStart2(IntToString(c.hrs)) + ":" + PadStart2(IntToString(c.mins)) + ":" + PadStart2(IntToString(c.secs))
  }

  /** A non-negative duration is rendered from the decimal numerals of its
      three fields. */
  lemma FormatarTempoFields(segundos: int)
    requires segundos >= 0
    ensures var c := CamposDe(segundos);
      FormatarTempo(segundos) == PadStart2(NatToString(c.hrs)) + ":" + PadStart2(NatToString(c.mins))
                                 + ":" + PadStart2(NatToString(c.secs))
  {
  }

  /** The rendering of a non-negative duration ends in `:MM:SS`, and reading
      its three numerals back gives the duration again. */
  lemma FormatarTempoRoundTrip(segundos: int)
    requires segundos >= 0
    ensures ClockReadsBack(FormatarTempo(segundos), segundos)
  {
    var c := CamposDe(segundos);
    FormatarTempoFields(segundos);
    NumeralLength(c.mins);
    NumeralLength(c.secs);
    PadStart2Value(c.hrs);
    PadStart2Value(c.mins);
    PadStart2Value(c.secs);
    ClockLayout(PadStart2(NatToString(c.hrs)), PadStart2(NatToString(c.mins)), PadStart2(NatToString(c.secs)), segundos);
  }

  /** The rendering is exactly `HH:MM:SS` below 100 hours and longer from
      there on. */
  lemma FormatarTempoWidth(segundos: int)
    requires segundos >= 0
    ensures |FormatarTempo(segundos)| == 8 <==> segundos < 360000
  {
    var c := CamposDe(segundos);
    var h := PadStart2(NatToString(c.hrs));
    FormatarTempoFields(segundos);
    NumeralLength(c.mins);
    NumeralLength(c.secs);
    assert |FormatarTempo(segundos)| == |h| + 6;
    NumeralLength(c.hrs);
    assert |h| == 2 <==> c.hrs < 100;
    assert c.hrs < 100 <==> segundos < 360000;
  }

  /** The text of the card's queue timer, `formatarTempo(tempoFila)`.  A
      missing queue time is `undefined`; every field is then NaN, and
      `NaN.toString()` is already three characters long. */
  function TextoFila(t: Duracoes): (out: string)
    ensures t.tempoFila.None? ==> out == "NaN:NaN:NaN"
    ensures t.tempoFila.Some? && t.tempoFila.value >= 0 ==> ClockReadsBack(out, t.tempoFila.value)
  {
    match t.tempoFila
    case None => "NaN:NaN:NaN"
    case Some(segundos) =>
      if segundos >= 0 then FormatarTempoRoundTrip(segundos); FormatarTempo(segundos)
      else FormatarTempo(segundos)
  }

  /** An unloading entry with a start instant shows the server's queue time
      as it is, so when the server left it out the card reads "NaN:NaN:NaN". */
  lemma MissingQueueTimeShowsNaN(m: Motorista, agora: int)
    requires m.rec.status == Descarregando && m.rec.timestampInicioDescarga.Some?
    ensures m.rec.tempoFila.None? ==> TextoFila(CalcularTempos(m, agora)) == "NaN:NaN:NaN"
    ensures m.rec.tempoFila.Some? && m.rec.tempoFila.value >= 0 ==>
      ClockReadsBack(TextoFila(CalcularTempos(m, agora)), m.rec.tempoFila.value)
  {
  }

  /** A waiting entry's queue timer always shows a clock, never NaN. */
  lemma WaitingShowsClock(m: Motorista, agora: int)
    requires m.rec.status == Aguardando && m.rec.timestampChegada <= agora
    ensures ClockReadsBack(TextoFila(CalcularTempos(m, agora)), (agora - m.rec.timestampChegada) / 1000)
  {
  }

  /** `out` has the shape `H…H:MM:SS` and its numerals add up to `segundos`. */
  predicate ClockReadsBack(out: string, segundos: int) {
    var n := |out|;
    && n >= 8
    && out[n - 6] == ':' && out[n - 3] == ':'
    && AllDigits(out[..n - 6]) && AllDigits(out[n - 5..n - 3]) && AllDigits(out[n - 2..])
    && DigitsValue(out[..n - 6]) * 3600 + DigitsValue(out[n - 5..n - 3]) * 60 + DigitsValue(out[n - 2..]) == segundos
  }

  lemma ClockLayout(h: string, m: string, s: string, segundos: int)
    requires |h| >= 2 && |m| == 2 && |s| == 2 && AllDigits(h) && AllDigits(m) && AllDigits(s)
    requires DigitsValue(h) * 3600 + DigitsValue(m) * 60 + DigitsValue(s) == segundos
    ensures ClockReadsBack(h + ":" + m + ":" + s, segundos)
  {
    ClockSplit(h, m, s);
  }

  /** Where the three fields sit in `h:m:s` when the last two have two
      characters each. */
  lemma ClockSplit(h: string, m: string, s: string)
    requires |h| >= 2 && |m| == 2 && |s| == 2
    ensures var out := h + ":" + m + ":" + s; var n := |out|;
      && n >= 8 && out[n - 6] == ':' && out[n - 3] == ':'
      && out[..n - 6] == h && out[n - 5..n - 3] == m && out[n - 2..] == s
  {
    var tail := ":" + m + ":" + s;
    var out := h + ":" + m + ":" + s;
    var n := |out|;
    assert out == h + tail;
    assert out[n - 5..n - 3] == tail[1..3];
    assert out[n - 2..] == tail[4..];
  }

  /** Numbers below 100 have at most two digits, larger ones at least three. */
  lemma NumeralLength(n: nat)
    ensures |NatToString(n)| <= 2 <==> n < 100
  {
    if n >= 10 {
      assert NatToString(n) == NatToString(n / 10) + [DigitChar(n % 10)];
      if n >= 100 {
        assert n / 10 >= 10;
      }
    }
  }

  /** A negative duration, as a clock running behind the server produces,
      is rendered with JavaScript's sign-keeping remainder. */
  lemma NegativeSecond()
    ensures FormatarTempo(-1) == "-1:-1:-1"
  {
    assert CamposDe(-1) == Campos(-1, -1, -1);
    assert DigitChar(1) == '1';
    assert NatToString(1) == "1";
    assert IntToString(-1) == "-1";
    assert PadStart2("-1") == "-1";
  }
}
